=== FILE: README.md ===
# rollup-plugin-ifdef, modelled in Dafny

A model of the rewrite engine of rollup-plugin-ifdef. This is the `transform(code, id)` hook in `src/index.js` that the plugin returns, together with the step that compiles the plugin options into the ordered `contents` pattern list.

One call of the hook runs up to `MAX_PASSES + 1` passes over the module text. In each pass, every pattern whose filters accept the id does the following, in order:

- it may replace the whole text, from a `text`, a `file` or a `transform` function;
- it may overwrite every occurrence of a literal test string at once;
- it may queue the matches of a regular-expression test.

At the end of the pass the queued matches are sorted. A match lying strictly inside the previously applied one is deferred to another pass. A pass in which nothing fired makes the hook return `undefined`.

The project is organised by module:

- `outcomes.dfy`: `Option` and `Result`.
- `text.dfy`: JavaScript string operations (`slice`, `indexOf`).
- `regex.dfy`: `RegExp.exec`, defined from an anchored-attempt oracle.
- `host.dfy`: everything the hook calls but the model does not define, gathered in one `Env` value:
  - the regex engine;
  - user functions;
  - id filters;
  - file reading.

  It also holds the thrown errors, and `Diverge` for a loop that never ends.
- `template.dfy`: the `$`-template expander of a string replacement.
- `patterns.dfy`: `parseDefines`, `parseReplaces` and `parsePatterns`, and the option record.
- `scan.dfy`: the `exec` loop of a regex test, and the `indexOf` loop of a literal test.
- `resolve.dfy`: sorting the queued matches and choosing which to apply.
- `buffer.dfy`: the `magic-string` buffer, as a list of disjoint overwrite edits spliced into the text.
- `engine.dfy`: one pattern, one pass, and the end of a pass.
- `hook.dfy`: the `do ... while` pass loop and the hook itself. It has a recursive form (`Transform`) and a loop form (`TransformLoop`) proved equal.
- `literal.dfy`: what a literal test with a string replacement renders to.

## Model

| member | source | states |
|---|---|---|
| Template.Tokenize | src/index.js:211 | the token scan of a replacement template yields only well-formed tokens |
| Template.TokenizeRoundTrip | src/index.js:211 | the tokens cover the template exactly: spelling them out again gives the template back |
| Template.DigitRunOf | src/index.js:211 | `\$\d+` takes the longest run of digits: a digit run followed by a non-digit is taken whole |
| Template.Value | src/index.js:211-228 | the callback's value for one token: `$$` gives `$`; `$&`, `` $` `` and `$'` give the whole match, the text before and the text after; `$N` for `1 <= N < match.length` gives group N, or '' when it is unset; any other `$N` and any copied character stay as written |
| Template.Expand | src/index.js:211-229 | a template without `$` expands to itself, whatever the match |
| Template.ExpandToken | src/index.js:211-229 | expansion is compositional: a token followed by text that cannot extend it expands to the token's value followed by the expansion of the rest |
| Template.ExpandPlain | src/index.js:211 | a character that starts no token is copied |
| Template.ExpandEscape | src/index.js:212-223 | `$$` gives `$`, `$&` the whole match, `` $` `` the text before it, `$'` the text after it |
| Template.ExpandGroup | src/index.js:224-228 | `$N` gives group N when 1 <= N < match.length (the empty string when the group is unset), and is kept verbatim otherwise |
| Template.UnknownGroupVerbatim | src/index.js:224-228 | `$0`, and `$N` past the last group, stay in the output verbatim |
| Template.SwapExample | test/test.js:33-34 | the template `'$2, $1'` applied to a match with groups a and b gives `b, a` |
| Template.GroupAlone | src/index.js:224-227 | `'$1'` expands to the first group |
| Regex.Exec | src/index.js:202 | `exec` from a start index returns the first position at or after it where the expression matches, and None only when it matches nowhere from there |
| Scan.ExecAll | src/index.js:202-238 | a non-global test yields at most one match; global matches start after the previous match ends; the loop never ends exactly when the last match of a global test is empty |
| Scan.ExecAllStarts | src/index.js:202-204 | the first match is the first `exec`, and there is none exactly when that `exec` fails |
| Scan.ExecAllChained | src/index.js:237 | each next match is `exec` from where the previous match ended |
| Scan.ExecAllStops | src/index.js:204-237 | a global loop that ends does so because `exec` from the last match's end fails |
| Scan.EmptyMatchRepeats | src/index.js:237 | after an empty match, `exec` finds the same match again, so the loop cannot advance |
| Scan.Replacement | src/index.js:209-235 | a string replace never fails; a function replace is called with `match[0]` followed by the captures, fails exactly when it returns a non-string and otherwise gives that string; anything else is not callable |
| Scan.ReplacementGroup | src/index.js:224-228 | in a string replace, `$N` followed by a non-digit gives capture N of the `exec` match, or '' when that group did not take part, for `1 <= N < match.length`, and stays as written otherwise |
| Scan.ReplacementSwap | src/index.js:209-229 | the `'$2, $1'` replace turns a match whose captures are `a` and `b` into `b, a` |
| Scan.ReplacementSlices | src/index.js:214-222 | in a string replace, `$&` gives `match[0]`, `` $` `` gives the code before the match and `$'` the code after it |
| Scan.Queue | src/index.js:204-236 | one pending record per match, with start = index, end = index + length, and str = the replacement of that match |
| Scan.Collect | src/index.js:201-238 | the queue is exactly the `exec` matches; a non-global test queues at most one; global records are left to right and do not overlap; each record's string is the replacement of its match; divergence happens only for a global test whose last match is empty |
| Scan.CollectSound | src/index.js:206-207 | every queued record covers, in the code, exactly the text of its match |
| Scan.ExecAllSound | src/index.js:206-207 | with a sound engine, every match of the loop lies inside the code and spells `match[0]` there |
| Text.IndexOf | src/index.js:242-256 | `indexOf(pat, from)` returns the first occurrence at or after the clamped start, and -1 exactly when there is none there |
| Scan.PositionsFrom | src/index.js:242-256 | the `indexOf` loop visits, in strictly increasing order, exactly the occurrences at or after its first position |
| Scan.LiteralPositions | src/index.js:241-257 | a literal scan visits exactly the indices where the test occurs, overlapping occurrences included, each once, in increasing order |
| Resolve.Insert | src/index.js:267 | inserting into a list sorted by start keeps it sorted and adds exactly that record |
| Resolve.SortByStart | src/index.js:267 | the sort by start is sorted and a permutation of its input |
| Resolve.SelectFrom | src/index.js:270-282 | `retry` is set exactly when something was deferred; with no previous match the first record is applied |
| Resolve.SelectPartition | src/index.js:271-282 | every record is either applied or deferred, and nothing else is |
| Resolve.SelectKeepsOrder | src/index.js:271-282 | the applied records, and the deferred ones, are each a subsequence of the input: they keep its order, ties included, and stay sorted when it is |
| Resolve.SelectNotNested | src/index.js:273-276 | no applied record lies strictly inside the one applied before it |
| Resolve.SelectCovers | src/index.js:273-278 | every deferred record lies strictly inside an applied one |
| Resolve.SelectSnoc | src/index.js:271-282 | one more record at the end of the queue is deferred, and `retry` set, exactly when it lies strictly inside the last record applied before it (or `prev` when none was); otherwise it is applied after the others |
| Resolve.SelectIsLoop | src/index.js:270-282 | selecting from the front agrees with `SelectLoop`, the `forEach` read left to right with `prev` as the last applied record |
| Resolve.Resolve | src/index.js:265-283 | the result is the left-to-right loop `SelectLoop` over the queue sorted by start, so each record is deferred exactly when it lies inside the last one applied before it; the applied and deferred records split the queue; retry exactly when something is deferred; applied records are sorted, unnested, led by a least start, and cover every deferred one; both lists keep the order of the sorted queue |
| Resolve.NoNestingAppliesAll | src/index.js:271-282 | without any nesting in the queue, every record is applied and no retry is asked |
| Buffer.Render | src/index.js:286 | `toString()` without edits is the text; the text before the first edit is kept; the length changes by exactly what each overwrite adds and drops |
| Buffer.Fresh | src/index.js:169 | a new buffer renders as its text |
| Buffer.InsertEdit | src/index.js:248 | recording an overwrite keeps the edits ordered and disjoint and adds exactly that edit |
| Buffer.Overwrite | src/index.js:248 | an overwrite is accepted exactly when its range is non-empty, inside the text and disjoint from every earlier edit |
| Buffer.OverwriteAppends | src/index.js:248 | an overwrite after every earlier edit is appended at the end of the edit list |
| Buffer.SpliceInsert | src/index.js:286 | rendering after an overwrite is rendering before it, with the overwritten range replaced by the new content at its position in the output |
| Buffer.OverwriteRender | src/index.js:281-286 | `toString()` after an accepted `overwrite(start, end, str)` is the previous output with the range's image replaced by `str` |
| Buffer.OverwriteFresh | src/index.js:169-248 | on a fresh buffer, `overwrite(start, end, str)` renders as `text[..start] + str + text[end..]` |
| Buffer.OrderedApart | src/index.js:281 | ordered edits are non-empty, inside the text, and each ends before the next starts |
| Buffer.ValidApart | src/index.js:281 | two distinct edits of a buffer do not overlap |
| Engine.Start | src/index.js:163-169 | a pass starts with zero counts, no queued matches, and a buffer that renders as the code |
| Engine.Adopt | src/index.js:185-189 | new content is adopted only when it differs from the code; adopting replaces code and buffer, counts once, and keeps the queue |
| Engine.ContentStep | src/index.js:108-123 | a `text`/`file` content fails exactly when the file cannot be read; without content nothing changes; otherwise the code becomes the text, or the file's contents; only the content count moves, and a step that counts nothing changes nothing |
| Engine.TransformStep | src/index.js:192-199 | the code changes exactly when the transform returns a string that differs from it, and then becomes that string; only the transform count moves |
| Engine.Place | src/index.js:281 | a queued replacement is placed exactly when the buffer accepts the overwrite, and is otherwise rejected |
| Engine.Hit | src/index.js:247-255 | one occurrence is overwritten by the string replace, or by the function's string result; a function returning a non-string throws; with neither, nothing is written |
| Engine.HitAll | src/index.js:243-257 | on success each visited occurrence adds one edit (none without a replace), and the text is unchanged |
| Engine.TestStep | src/index.js:200-258 | a test never changes the code; the literal count grows by the number of occurrences and the regex count by the number of `exec` matches, which are queued in order; the queue grows by exactly the records `Collect` computes; a literal test's buffer is the one its occurrences' overwrites produce; a regex test leaves the buffer alone; only a global regex or an empty literal test can loop forever |
| Engine.ApplyPattern | src/index.js:170-199 | a pattern whose filter or matcher rejects the id changes nothing; otherwise counts only grow, the queue only grows at its end, and the code changes only through a counted content or transform swap |
| Engine.ApplyAll | src/index.js:170-262 | over all patterns, counts only grow, the queue only grows at its end, the code changes only through a counted content or transform swap, and a pass that counts nothing leaves the state untouched |
| Engine.PlaceAll | src/index.js:271-282 | placing the applied records keeps every earlier edit and adds one edit per record |
| Engine.Finish | src/index.js:261-292 | a pass returns `undefined` exactly when it counted nothing; its only error is a rejected overwrite; with nothing queued it renders the buffer and asks for no retry |
| Engine.RetryIffNested | src/index.js:265-283 | a completed pass asks for another exactly when its queue held one replacement strictly inside another |
| Hook.Sweep | src/index.js:163-259 | a pass that counted nothing ends in the pass-start state, and a changed code implies a counted swap |
| Hook.Conclude | src/index.js:261-264 | the pass is `undefined` exactly when its sweep succeeded without counting anything |
| Hook.RunPass | src/index.js:163-292 | a pass body returns `undefined` exactly when its sweep ends in the pass-start state |
| Hook.Passes | src/index.js:162-293 | the loop runs between 1 and `MAX_PASSES + 1 - pass` pass bodies |
| Hook.Transform | src/index.js:147-155 | an id the filter rejects, or an empty pattern list, gives `undefined` |
| Hook.TransformLoop | src/index.js:147-295 | the hook written as the source's loop returns what the recursive definition returns |
| Hook.RetryHandsOn | src/index.js:292-293 | a pass that asks for a retry below the limit hands its output to the next pass |
| Hook.DiscardsEarlierOutput | src/index.js:261-264 | a first pass that changes the code and asks for a retry, followed by a pass that fires nothing, makes the hook return `undefined`, while the intended loop returns the first pass's output |
| Hook.PassesIntended | dist/rollup-plugin-ifdef.cjs.js:279-281 | with the early exit `!(pass + c + t + r + s)`, the loop ends in `undefined` exactly when it is the first pass and nothing fires in it |
| Hook.IntendedAgrees | src/index.js:261-293 | the loop as written and the intended loop agree whenever the one as written does not end in `undefined` |
| Hook.TransformIntended | src/index.js:147-295 | the hook with the intended early exit returns `undefined` exactly when the id is filtered out, there are no patterns, or nothing fires in the first pass; otherwise, if the hook as written returns something else than `undefined`, both agree |
| Hook.PassesTrace | src/index.js:162-294 | the hook ends with an outcome after n passes exactly when the n pass inputs form a chain: each earlier pass asks for a retry and hands its output on, and the last returns `undefined`, stops asking, or hits the limit |
| Patterns.ParsePattern | src/index.js:79-126 | the test, replace, content, transform and matcher are classified as the source does; `text` wins over `file` |
| Patterns.ParseUnparse | src/index.js:96-123 | every compiled pattern comes from some raw pattern, and compiling it again gives it back |
| Patterns.ReplacePatterns | src/index.js:49-58 | one literal-test pattern per `replaces` entry, in order, with that entry's value as the replace |
| Patterns.ParseAll | src/index.js:80-125 | every raw pattern is compiled in place, keeping the order |
| Patterns.Configure | src/index.js:138-144 | the compiled list is the user patterns, then the define patterns, then the `replaces` patterns, under the global filter |
| Patterns.DefineBlock | src/index.js:16-36 | a truthy define gives two patterns and a falsy one three: the `#ifdef` expression first and the `#if/#else` one last, with the marker between them when falsy; each is a global define expression for that name with a string replace and no other option |
| Patterns.DefinePatterns | src/index.js:13-40 | every define pattern belongs to one of the defines, with a global define expression and a string replace, and each define contributes two or three |
| Patterns.DefinePatternsAppend | src/index.js:15-38 | the define patterns of a list are the blocks of its entries, in order |
| Patterns.DefinePatternsLength | src/index.js:17-37 | an enabled define adds two patterns and a disabled one three |
| Patterns.Enabled | src/index.js:17 | the names it lists are exactly those of the truthy defines, at most one per define |
| Patterns.DefineTemplates | src/index.js:17-37 | enabled: the ifdef block keeps `{body}`; disabled: the block and the bare marker vanish; the if/else block keeps `{then}` or `{else}` |
| Patterns.BracedGroup | src/index.js:20-36 | `'{$1}'` and `'{$2}'` expand to the group wrapped in braces |
| Literal.HitAllAppends | src/index.js:243-256 | string overwrites at increasing positions append one edit per position, in order |
| Literal.SpliceIsSplitJoin | src/index.js:286 | splicing the overwrites of the listed occurrences gives the left-to-right, non-overlapping replacement of every occurrence |
| Literal.LiteralReplaceRenders | src/index.js:239-257 | a successful literal test with a string replace, on a fresh buffer, renders as `code.split(test).join(replace)` |
| Literal.LiteralReplaceApart | src/index.js:248 | a successful literal replacement implies no two occurrences overlapped, because an overlapping overwrite is rejected |

## Left out

- The regular-expression engine is a parameter, an anchored-attempt function. The same holds for the three define expressions built at src/index.js:299-312: they appear only by name (`IfDef`, `IfElse`, `DefineMarker`). Their source text, and the unescaped splicing of the define name into it, are not modelled.
- `magic-string` is reduced to a list of disjoint overwrite edits. An overwrite with an empty range, a range past the end, or one overlapping an earlier edit is a thrown error (`EditRejected`). That includes overwrites that the library accepts, such as the same range twice or one range enclosing an earlier one. Source maps (src/index.js:288-290) are not modelled.
- `exec` always searches forward from `lastIndex`, and a non-global expression starts every scan at 0. Sticky (`y`) expressions are not modelled: they try only at `lastIndex`, and a non-global sticky expression keeps a non-zero `lastIndex` from one pass to the next.
- Text is a sequence of Unicode scalar values, while every offset the code computes is in UTF-16 code units: `match.index`, `match[0].length`, `indexOf`, and the `magic-string` positions. Lone surrogates cannot be represented. Neither can a test or match that splits a surrogate pair. A character outside the Basic Multilingual Plane counts as one position here and as two in the code.
- `createFilter` glob matching and the three `match` forms (src/index.js:85-94, 139) are a predicate on the id.
- Reading a `file` (src/index.js:108-117) is a function that may fail. Path resolution is inside that function.
- `verbose` logging (src/index.js:128-136) has no effect on the result and is not modelled.
- `_pass` passthrough patterns (src/index.js:81-82) are not modelled. Neither is the mutation of the options object (src/index.js:141).
- `for ... in` order over `defines` and `replaces` is the order of the sequences the model is given.
- `Array.prototype.sort` stability: `SortByStart` is a stable insertion sort, and its contract states sortedness and permutation only.
- A user `transform` or `replace` function is a pure function of its arguments. Side effects and exceptions thrown inside it are not modelled.
- A thrown error and a non-terminating loop are both `Halt` results. An empty literal test without a replace never ends, because `indexOf('')` never returns -1; with a replace, the first `overwrite(0, 0, ...)` throws. A global regex whose last match is empty never ends either. Both endless loops become `Diverge`.
- The published build `dist/rollup-plugin-ifdef.cjs.js` is not modelled, except for its early exit, which is the corrected loop `Hook.PassesIntended` (see "## Findings"). That build returns `{}` rather than `undefined` when the first pass fires nothing; both leave the module as it was, and the model writes both as `Unchanged`.
- Three behaviours of the code that the model keeps:
  - the literal scan finds overlapping occurrences, because it resumes at `pos + 1`;
  - any pass that counts nothing, not only the first, makes the hook return `undefined` and discards earlier passes' output (`Hook.Transform`; the corrected form is under "## Findings");
  - matches queued before a later pattern's content or transform swap stay queued and are applied to the new text at their old offsets, since `regexToDo` is not cleared.
- Literal.LiteralReplaceRenders: states the rendering only for a string replacement. A function replacement gives the same edits with the function's result, but that case is not proved.
- Buffer.SpliceInsert: describes rendering only for accepted overwrites, because rejected ones are errors in this model.

## Findings

| source | as written | input that shows it | evidently intended | confidence | as-written member | corrected member |
|---|---|---|---|---|---|---|
| src/index.js:261-264 | `if (!(c + t + r + s)) return` ends the hook with `undefined` on any pass, so a later pass in which nothing fires throws away what the earlier passes produced | a module holding only a disabled outer block around a nested block, as in test/fixtures/ifelse.js:29-34 without the rest of the file, with `defines: { ONE: false, TWO: true }`: the first pass removes the outer block and defers the nested match, the second pass finds nothing, and the module is left with the block in it | only the first pass may return `undefined`; a later empty pass ends the loop with the code it was given, as the published build's `!(pass + c + t + r + s)` does (dist/rollup-plugin-ifdef.cjs.js:279-281) | medium, not executed | Hook.DiscardsEarlierOutput | Hook.PassesIntended |

=== FILE: buffer.dfy ===
/**
 * The `magic-string` buffer as the plugin uses it: the text a pass started from and
 * the overwrites made against it so far. `toString` splices the overwrites in.
 */
module Buffer {
  import opened Outcomes
  import opened Text

  /** `overwrite(start, end, content)`: replace `text[start..end]` by `content`. */
  datatype Edit = Edit(start: nat, end: nat, content: String)

  /** Edits are kept ordered by position. */
  datatype Buffer = Buffer(text: String, edits: seq<Edit>)

  predicate Disjoint(a: Edit, b: Edit)
  {
    a.end <= b.start || b.end <= a.start
  }

  /** The edits cover non-empty ranges at or after `from`, inside `n` characters, left to right without overlap. */
  predicate Ordered(edits: seq<Edit>, from: nat, n: nat)
    decreases |edits|
  {
    |edits| == 0 || (from <= edits[0].start < edits[0].end <= n && Ordered(edits[1..], edits[0].end, n))
  }

  predicate Valid(b: Buffer)
  {
    Ordered(b.edits, 0, |b.text|)
  }

  /** `e` touches none of `edits`. */
  predicate Clear(edits: seq<Edit>, e: Edit)
    decreases |edits|
  {
    |edits| == 0 || (Disjoint(edits[0], e) && Clear(edits[1..], e))
  }

  lemma {:induction false} ClearIff(edits: seq<Edit>, e: Edit)
    ensures Clear(edits, e) <==> forall i :: 0 <= i < |edits| ==> Disjoint(edits[i], e)
    decreases |edits|
  {
    if |edits| > 0 {
      ClearIff(edits[1..], e);
      assert forall i :: 1 <= i < |edits| ==> edits[i] == edits[1..][i - 1];
    }
  }

  /** `new MagicString(text)`: nothing overwritten yet. */
  function Fresh(text: String): (b: Buffer)
    ensures Valid(b) && Render(b) == text
  {
    Buffer(text, [])
  }

  /** The text from `from` on with `edits` spliced in. */
  function Splice(text: String, edits: seq<Edit>, from: nat): String
    requires from <= |text| && Ordered(edits, from, |text|)
    decreases |edits|
  {
    if |edits| == 0 then text[from..]
    else text[from..edits[0].start] + edits[0].content + Splice(text, edits[1..], edits[0].end)
  }

  /** How much longer the edits make the text: each adds its content and drops its range. */
  function Growth(edits: seq<Edit>): int
  {
    if |edits| == 0 then 0 else |edits[0].content| - (edits[0].end - edits[0].start) + Growth(edits[1..])
  }

  lemma {:induction false} SpliceLength(text: String, edits: seq<Edit>, from: nat)
    requires from <= |text| && Ordered(edits, from, |text|)
    ensures |Splice(text, edits, from)| == |text| - from + Growth(edits)
    decreases |edits|
  {
    if |edits| > 0 {
      SpliceLength(text, edits[1..], edits[0].end);
    }
  }

  /**
   * `magicString.toString()`: the text with every overwrite spliced in. Without edits it
   * is the text; the text before the first edit is kept; the length changes by exactly
   * what the edits add and drop.
   */
  function Render(b: Buffer): (r: String)
    requires Valid(b)
    ensures |b.edits| == 0 ==> r == b.text
    ensures |b.edits| > 0 ==> b.edits[0].start <= |r| && r[..b.edits[0].start] == b.text[..b.edits[0].start]
    ensures |r| == |b.text| + Growth(b.edits)
  {
    SpliceLength(b.text, b.edits, 0);
    Splice(b.text, b.edits, 0)
  }

  function InsertEdit(edits: seq<Edit>, e: Edit, from: nat, n: nat): (r: seq<Edit>)
    requires Ordered(edits, from, n) && Clear(edits, e)
    requires from <= e.start < e.end <= n
    ensures Ordered(r, from, n)
    ensures multiset(r) == multiset(edits) + multiset{e}
    decreases |edits|
  {
    if |edits| == 0 then [e]
    else if e.end <= edits[0].start then [e] + edits
    else
      assert multiset(edits) == multiset{edits[0]} + multiset(edits[1..]) by {
        assert edits == [edits[0]] + edits[1..];
      }
      [edits[0]] + InsertEdit(edits[1..], e, edits[0].end, n)
  }

  /** An overwrite after every existing edit goes at the end of the list. */
  lemma {:induction false} InsertAtEnd(edits: seq<Edit>, e: Edit, from: nat, n: nat)
    requires Ordered(edits, from, n) && Clear(edits, e)
    requires from <= e.start < e.end <= n
    requires forall k :: 0 <= k < |edits| ==> edits[k].start < e.start
    ensures InsertEdit(edits, e, from, n) == edits + [e]
    decreases |edits|
  {
    if |edits| > 0 {
      var d := edits[0];
      var tail := edits[1..];
      assert d.start < e.start;
      assert d.end <= e.start;
      InsertAtEnd(tail, e, d.end, n);
      assert edits == [d] + tail;
    }
  }

  /**
   * `magicString.overwrite(start, end, content)`. The model accepts an overwrite of a
   * non-empty range inside the text that touches no earlier edit, and rejects every
   * other one (`None`).
   */
  function Overwrite(b: Buffer, start: nat, end: nat, content: String): (r: Option<Buffer>)
    requires Valid(b)
    ensures r.Some? <==> start < end <= |b.text| && forall i :: 0 <= i < |b.edits| ==> Disjoint(b.edits[i], Edit(start, end, content))
    ensures r.Some? ==> Valid(r.value) && r.value.text == b.text
    ensures r.Some? ==> multiset(r.value.edits) == multiset(b.edits) + multiset{Edit(start, end, content)}
  {
    var e := Edit(start, end, content);
    ClearIff(b.edits, e);
    if start < end <= |b.text| && Clear(b.edits, e) then
      Some(Buffer(b.text, InsertEdit(b.edits, e, 0, |b.text|)))
    else
      None
  }

  /** An accepted overwrite that starts after every existing edit starts is appended to the edits. */
  lemma OverwriteAppends(b: Buffer, start: nat, end: nat, content: String)
    requires Valid(b) && Overwrite(b, start, end, content).Some?
    requires forall k :: 0 <= k < |b.edits| ==> b.edits[k].start < start
    ensures Overwrite(b, start, end, content).value == Buffer(b.text, b.edits + [Edit(start, end, content)])
  {
    ClearIff(b.edits, Edit(start, end, content));
    InsertAtEnd(b.edits, Edit(start, end, content), 0, |b.text|);
  }

  /** The first two edits of an ordered list, and the ordering of the rest. */
  lemma OrderedHead(edits: seq<Edit>, from: nat, n: nat)
    requires Ordered(edits, from, n) && |edits| > 0
    ensures from <= edits[0].start < edits[0].end <= n && Ordered(edits[1..], edits[0].end, n)
    ensures |edits| > 1 ==> edits[0].end <= edits[1].start
  {
    if |edits| > 1 {
      assert edits[1..][0] == edits[1];
    }
  }

  /** Position `p` of the text is not strictly inside any edit. */
  predicate Outside(edits: seq<Edit>, p: nat)
    decreases |edits|
  {
    |edits| == 0 || (!(edits[0].start < p < edits[0].end) && Outside(edits[1..], p))
  }

  /** Where position `p` of the text lands in `Splice(text, edits, from)`. */
  function OutPos(text: String, edits: seq<Edit>, from: nat, p: nat): (q: nat)
    requires from <= p <= |text| && Ordered(edits, from, |text|) && Outside(edits, p)
    ensures q <= |Splice(text, edits, from)|
    decreases |edits|
  {
    if |edits| == 0 || p <= edits[0].start then p - from
    else (edits[0].start - from) + |edits[0].content| + OutPos(text, edits[1..], edits[0].end, p)
  }

  lemma OutPosMonotone(text: String, edits: seq<Edit>, from: nat, p: nat, p': nat)
    requires from <= p <= p' <= |text| && Ordered(edits, from, |text|)
    requires Outside(edits, p) && Outside(edits, p')
    ensures OutPos(text, edits, from, p) <= OutPos(text, edits, from, p')
    decreases |edits|
  {
    if |edits| > 0 && p > edits[0].start {
      OutPosMonotone(text, edits[1..], edits[0].end, p, p');
    }
  }

  lemma ClearIsOutside(edits: seq<Edit>, e: Edit)
    requires e.start < e.end && Clear(edits, e)
    ensures Outside(edits, e.start) && Outside(edits, e.end)
    decreases |edits|
  {
    if |edits| > 0 {
      ClearIsOutside(edits[1..], e);
    }
  }

  /** The new edit lies before every existing one. */
  lemma SpliceInsertFirst(text: String, edits: seq<Edit>, from: nat, e: Edit)
    requires Ordered(edits, from, |text|) && |edits| > 0
    requires from <= e.start < e.end <= edits[0].start
    requires Outside(edits, e.start) && Outside(edits, e.end)
    ensures var s := Splice(text, edits, from);
      OutPos(text, edits, from, e.start) == e.start - from
      && OutPos(text, edits, from, e.end) == e.end - from
      && Splice(text, [e] + edits, from) == s[..e.start - from] + e.content + s[e.end - from..]
  {
    var s := Splice(text, edits, from);
    var rest := edits[0].content + Splice(text, edits[1..], edits[0].end);
    var lead := text[from..edits[0].start];
    assert s == lead + rest;
    assert Splice(text, edits, e.end) == text[e.end..edits[0].start] + rest;
    SplitLead(text, from, edits[0].start, e.start - from, e.end - from, rest);
  }

  /** Cutting `text[from..stop] + rest` at two points inside its first part. */
  lemma SplitLead(text: String, from: nat, stop: nat, i: nat, j: nat, rest: String)
    requires from <= stop <= |text| && i <= j <= stop - from
    ensures (text[from..stop] + rest)[..i] == text[from..from + i]
    ensures (text[from..stop] + rest)[j..] == text[from + j..stop] + rest
  {
  }

  /**
   * Inserting one edit changes the spliced text exactly at the image of the edited
   * range: everything before and after it is the old output.
   */
  lemma {:induction false} SpliceInsert(text: String, edits: seq<Edit>, from: nat, e: Edit)
    requires Ordered(edits, from, |text|) && Clear(edits, e)
    requires from <= e.start < e.end <= |text|
    ensures Outside(edits, e.start) && Outside(edits, e.end)
    ensures OutPos(text, edits, from, e.start) <= OutPos(text, edits, from, e.end)
    ensures var s := Splice(text, edits, from);
      Splice(text, InsertEdit(edits, e, from, |text|), from)
        == s[..OutPos(text, edits, from, e.start)] + e.content + s[OutPos(text, edits, from, e.end)..]
    decreases |edits|
  {
    ClearIsOutside(edits, e);
    OutPosMonotone(text, edits, from, e.start, e.end);
    if |edits| == 0 {
    } else if e.end <= edits[0].start {
      SpliceInsertFirst(text, edits, from, e);
    } else {
      SpliceInsertLater(text, edits, from, e);
    }
  }

  /** The new edit lies after the first existing one. */
  lemma {:induction false} SpliceInsertLater(text: String, edits: seq<Edit>, from: nat, e: Edit)
    requires Ordered(edits, from, |text|) && Clear(edits, e) && |edits| > 0
    requires from <= e.start < e.end <= |text| && edits[0].start < e.end
    requires Outside(edits, e.start) && Outside(edits, e.end)
    requires OutPos(text, edits, from, e.start) <= OutPos(text, edits, from, e.end)
    ensures var s := Splice(text, edits, from);
      Splice(text, InsertEdit(edits, e, from, |text|), from)
        == s[..OutPos(text, edits, from, e.start)] + e.content + s[OutPos(text, edits, from, e.end)..]
    decreases |edits|, 0
  {
    var d := edits[0];
    var tail := edits[1..];
    SpliceInsert(text, tail, d.end, e);
    UnfoldLater(text, edits, from, e);
    Reassemble(Splice(text, edits, from), text[from..d.start] + d.content, Splice(text, tail, d.end),
      OutPos(text, tail, d.end, e.start), OutPos(text, tail, d.end, e.end), e.content,
      Splice(text, InsertEdit(tail, e, d.end, |text|), d.end),
      OutPos(text, edits, from, e.start), OutPos(text, edits, from, e.end),
      Splice(text, InsertEdit(edits, e, from, |text|), from));
  }

  /** One step of `Splice`, `OutPos` and `InsertEdit` past the first edit, when the new one lies after it. */
  lemma UnfoldLater(text: String, edits: seq<Edit>, from: nat, e: Edit)
    requires Ordered(edits, from, |text|) && Clear(edits, e) && |edits| > 0
    requires from <= e.start < e.end <= |text| && edits[0].start < e.end
    requires Outside(edits, e.start) && Outside(edits, e.end)
    ensures var d := edits[0];
      var head := text[from..d.start] + d.content;
      && d.end <= e.start
      && Splice(text, edits, from) == head + Splice(text, edits[1..], d.end)
      && OutPos(text, edits, from, e.start) == |head| + OutPos(text, edits[1..], d.end, e.start)
      && OutPos(text, edits, from, e.end) == |head| + OutPos(text, edits[1..], d.end, e.end)
      && Splice(text, InsertEdit(edits, e, from, |text|), from) == head + Splice(text, InsertEdit(edits[1..], e, d.end, |text|), d.end)
  {
  }

  /** Replacing a window of `head + t` that lies inside `t`. */
  lemma Reassemble<T>(s: seq<T>, head: seq<T>, t: seq<T>, a: nat, b: nat, c: seq<T>, ins: seq<T>, p: nat, q: nat, out: seq<T>)
    requires s == head + t && a <= b <= |t| && ins == t[..a] + c + t[b..]
    requires p == |head| + a && q == |head| + b && out == head + ins
    ensures p <= q <= |s| && out == s[..p] + c + s[q..]
  {
    assert s[..p] == head + t[..a];
    assert s[q..] == t[b..];
  }

  /**
   * `overwrite` seen through `toString`: the output of the buffer changes exactly in
   * the image of the overwritten range, which now reads `content`.
   */
  lemma OverwriteRender(b: Buffer, start: nat, end: nat, content: String)
    requires Valid(b) && Overwrite(b, start, end, content).Some?
    ensures Outside(b.edits, start) && Outside(b.edits, end)
    ensures var s := Render(b);
      var p := OutPos(b.text, b.edits, 0, start);
      var q := OutPos(b.text, b.edits, 0, end);
      p <= q && Render(Overwrite(b, start, end, content).value) == s[..p] + content + s[q..]
  {
    ClearIff(b.edits, Edit(start, end, content));
    SpliceInsert(b.text, b.edits, 0, Edit(start, end, content));
  }

  /** On a fresh buffer an overwrite is a plain substring replacement. */
  lemma OverwriteFresh(text: String, start: nat, end: nat, content: String)
    requires start < end <= |text|
    ensures Overwrite(Fresh(text), start, end, content).Some?
    ensures Render(Overwrite(Fresh(text), start, end, content).value) == text[..start] + content + text[end..]
  {
    OverwriteRender(Fresh(text), start, end, content);
  }

  /** Ordered edits are non-empty, in range, and each ends before the next one starts. */
  lemma {:induction false} OrderedApart(edits: seq<Edit>, from: nat, n: nat)
    requires Ordered(edits, from, n)
    ensures forall e :: e in edits ==> from <= e.start < e.end <= n
    ensures forall i, j :: 0 <= i < j < |edits| ==> edits[i].end <= edits[j].start
    decreases |edits|
  {
    if |edits| > 0 {
      var tail := edits[1..];
      OrderedApart(tail, edits[0].end, n);
      forall i, j | 0 <= i < j < |edits| ensures edits[i].end <= edits[j].start {
        assert edits[j] == tail[j - 1];
        if i > 0 {
          assert edits[i] == tail[i - 1];
        } else {
          assert edits[j] in tail;
        }
      }
      forall e | e in edits ensures from <= e.start < e.end <= n {
        if e != edits[0] {
          assert e in tail;
        }
      }
    }
  }

  /** Two different edits of a valid buffer do not overlap. */
  lemma ValidApart(b: Buffer, e1: Edit, e2: Edit)
    requires Valid(b) && e1 in b.edits && e2 in b.edits && e1 != e2
    ensures Disjoint(e1, e2) && e1.start < e1.end
  {
    OrderedApart(b.edits, 0, |b.text|);
    var i :| 0 <= i < |b.edits| && b.edits[i] == e1;
    var j :| 0 <= j < |b.edits| && b.edits[j] == e2;
    assert i != j;
  }
}

=== FILE: engine.dfy ===
/**
 * One pass of the `transform` hook over the patterns (src/index.js:163-259): every
 * compiled pattern in order runs against the current code and one buffer; literal
 * tests overwrite the buffer at once, regular-expression tests only queue their
 * replacements for the end of the pass.
 */
module Engine {
  import opened Outcomes
  import opened Text
  import opened Patterns
  import opened Host
  import opened Buffer
  import opened Scan
  import opened Resolve

  /** `hasReplacements`: how often each kind of replacement fired in this pass. */
  datatype Counts = Counts(content: nat, transform: nat, regex: nat, literal: nat)

  /** `c + t + r + s` */
  function Total(n: Counts): nat
  {
    n.content + n.transform + n.regex + n.literal
  }

  /** Every count of `a` is at most the matching count of `b`. */
  predicate Below(a: Counts, b: Counts)
  {
    a.content <= b.content && a.transform <= b.transform && a.regex <= b.regex && a.literal <= b.literal
  }

  /** The state a pass threads through the patterns: `code`, `magicString`, the counts and `regexToDo`. */
  datatype PassState = PassState(code: String, buffer: Buffer, counts: Counts, pending: seq<Pending>)

  /** The buffer was made from the current code. */
  predicate Coherent(st: PassState)
  {
    Valid(st.buffer) && st.buffer.text == st.code
  }

  /** The state at the top of a pass (src/index.js:163-169). */
  function Start(code: String): (st: PassState)
    ensures Coherent(st) && Render(st.buffer) == code
    ensures st.counts == Counts(0, 0, 0, 0) && st.pending == []
  {
    PassState(code, Fresh(code), Counts(0, 0, 0, 0), [])
  }

  /** Which count a whole-content swap bumps. */
  datatype Swap = ContentSwap | TransformSwap

  /**
   * A new whole content for the pattern (src/index.js:185-189, 194-198): taken only when
   * it differs from the current code, and then the buffer starts over while the queued
   * regular-expression replacements stay.
   */
  function Adopt(st: PassState, next: String, kind: Swap): (r: PassState)
    requires Coherent(st)
    ensures Coherent(r)
    ensures next == st.code ==> r == st
    ensures next != st.code ==> r.code == next && Render(r.buffer) == next
    ensures r.pending == st.pending && Below(st.counts, r.counts)
    ensures Total(r.counts) == Total(st.counts) + (if next == st.code then 0 else 1)
  {
    if next == st.code then st
    else
      var counts := match kind
        case ContentSwap => st.counts.(content := st.counts.content + 1)
        case TransformSwap => st.counts.(transform := st.counts.transform + 1);
      PassState(next, Fresh(next), counts, st.pending)
  }

  /** `pattern.replaceContent(res)`: the `file` or `text` content (src/index.js:108-123, 178-190). */
  function ContentStep(env: Env, id: String, p: Pattern, st: PassState): (r: Result<PassState, Halt>)
    requires Coherent(st)
    ensures r.Success? ==> Coherent(r.value) && r.value.pending == st.pending
    ensures r.Success? ==> Below(st.counts, r.value.counts)
    ensures r.Success? ==> r.value.counts.regex == st.counts.regex && r.value.counts.literal == st.counts.literal
    ensures r.Success? ==> r.value.counts.transform == st.counts.transform
    ensures r.Success? && Total(r.value.counts) == Total(st.counts) ==> r.value == st
    ensures r.Failure? <==> p.content.FromFile? && env.readFile(id, p.content.path).None?
    ensures p.content.NoContent? ==> r == Success(st)
    ensures p.content.FromText? ==> r.Success? && r.value.code == p.content.text
    ensures r.Success? && p.content.FromFile? ==> r.value.code == env.readFile(id, p.content.path).value
    ensures r.Failure? ==> r.error == Fail(CannotReadFile(id, p.content.path))
  {
    match p.content
    case NoContent => Success(st)
    case FromText(t) => Success(Adopt(st, t, ContentSwap))
    case FromFile(path) =>
      (match env.readFile(id, path)
       case None => Failure(Fail(CannotReadFile(id, path)))
       case Some(t) => Success(Adopt(st, t, ContentSwap)))
  }

  /** `pattern.transform(code, id)`; a result that is not a string is ignored (src/index.js:192-199). */
  function TransformStep(env: Env, id: String, p: Pattern, st: PassState): (r: PassState)
    requires Coherent(st)
    ensures Coherent(r) && r.pending == st.pending && Below(st.counts, r.counts)
    ensures r.counts.content == st.counts.content && r.counts.regex == st.counts.regex && r.counts.literal == st.counts.literal
    ensures Total(r.counts) == Total(st.counts) ==> r == st
    ensures r.code != st.code <==> (p.transform.Some? && env.call(p.transform.value, [Some(st.code), Some(id)]).Some?
      && env.call(p.transform.value, [Some(st.code), Some(id)]).value != st.code)
    ensures r.code != st.code ==> r.code == env.call(p.transform.value, [Some(st.code), Some(id)]).value
  {
    match p.transform
    case None => st
    case Some(f) =>
      (match env.call(f, [Some(st.code), Some(id)])
       case None => st
       case Some(t) => Adopt(st, t, TransformSwap))
  }

  /** `magicString.overwrite(start, end, str)`; a rejected overwrite throws. */
  function Place(b: Buffer, start: nat, end: nat, str: String): (r: Result<Buffer, Halt>)
    requires Valid(b)
    ensures r.Success? ==> Valid(r.value) && r.value.text == b.text
    ensures r.Success? ==> multiset(r.value.edits) == multiset(b.edits) + multiset{Edit(start, end, str)}
    ensures r.Failure? <==> Overwrite(b, start, end, str).None?
    ensures r.Success? ==> Overwrite(b, start, end, str) == Some(r.value)
    ensures r.Failure? ==> r.error == Fail(EditRejected)
  {
    match Overwrite(b, start, end, str)
    case None => Failure(Fail(EditRejected))
    case Some(b') => Success(b')
  }

  /** One occurrence of a literal test (src/index.js:244-255). */
  function Hit(env: Env, id: String, rep: Replace, b: Buffer, start: nat, end: nat): (r: Result<Buffer, Halt>)
    requires Valid(b)
    ensures r.Success? ==> Valid(r.value) && r.value.text == b.text
    ensures rep.NoReplace? ==> r == Success(b)
    ensures rep.StringReplace? ==> r == Place(b, start, end, rep.template)
    ensures rep.FunctionReplace? && env.call(rep.f, [Some(id)]).None? ==> r == Failure(Fail(ReplaceNotString))
    ensures rep.FunctionReplace? && env.call(rep.f, [Some(id)]).Some? ==>
      r == Place(b, start, end, env.call(rep.f, [Some(id)]).value)
    ensures r.Failure? ==> r.error == Fail(EditRejected) || r.error == Fail(ReplaceNotString)
  {
    match rep
    case StringReplace(t) => Place(b, start, end, t)
    case FunctionReplace(f) =>
      (match env.call(f, [Some(id)])
       case None => Failure(Fail(ReplaceNotString))
       case Some(t) => Place(b, start, end, t))
    case NoReplace => Success(b)
  }

  /** The occurrences at `positions`, each `len` long, in order; the first failure stops the loop. */
  function HitAll(env: Env, id: String, rep: Replace, b: Buffer, positions: seq<nat>, len: nat): (r: Result<Buffer, Halt>)
    requires Valid(b)
    ensures r.Success? ==> Valid(r.value) && r.value.text == b.text
    ensures r.Success? && rep.NoReplace? ==> r.value == b
    ensures r.Success? && !rep.NoReplace? ==> |r.value.edits| == |b.edits| + |positions|
    ensures r.Failure? ==> r.error == Fail(EditRejected) || r.error == Fail(ReplaceNotString)
    decreases |positions|
  {
    if |positions| == 0 then Success(b)
    else
      var b' :- Hit(env, id, rep, b, positions[0], positions[0] + len);
      assert !rep.NoReplace? ==> |b'.edits| == |b.edits| + 1 by {
        if !rep.NoReplace? {
          assert |multiset(b'.edits)| == |multiset(b.edits)| + 1;
        }
      }
      HitAll(env, id, rep, b', positions[1..], len)
  }

  /** The test of one pattern against the current code (src/index.js:200-258). */
  function TestStep(env: Env, id: String, p: Pattern, st: PassState): (r: Result<PassState, Halt>)
    requires Coherent(st)
    ensures r.Success? ==> Coherent(r.value) && r.value.code == st.code
    ensures r.Success? ==> Below(st.counts, r.value.counts)
    ensures r.Success? ==> r.value.counts.content == st.counts.content && r.value.counts.transform == st.counts.transform
    ensures r.Success? ==> (|r.value.pending| == |st.pending| + (r.value.counts.regex - st.counts.regex)
      && r.value.pending[..|st.pending|] == st.pending)
    ensures r.Success? && Total(r.value.counts) == Total(st.counts) ==> r.value == st
    ensures r.Success? && !p.test.LiteralTest? ==> r.value.buffer == st.buffer
    ensures r.Success? && p.test.LiteralTest? ==>
      |p.test.s| > 0 && r.value.counts.literal == st.counts.literal + |LiteralPositions(st.code, p.test.s)|
    ensures r.Success? && p.test.RegexTest? ==>
      r.value.counts.regex == st.counts.regex + |ExecAll(env.attempt, p.test.re, st.code, 0).matches|
    ensures r.Success? && p.test.RegexTest? ==>
      Collect(env, p.test.re, p.replace, st.code).Success?
      && r.value.pending == st.pending + Collect(env, p.test.re, p.replace, st.code).value
    ensures r.Success? && p.test.LiteralTest? ==>
      |p.test.s| > 0
      && HitAll(env, id, p.replace, st.buffer, LiteralPositions(st.code, p.test.s), |p.test.s|).Success?
      && r.value.buffer == HitAll(env, id, p.replace, st.buffer, LiteralPositions(st.code, p.test.s), |p.test.s|).value
    ensures r.Failure? && r.error.Diverge? ==> (p.test.RegexTest? && p.test.re.global) || p.test == LiteralTest("")
    ensures r.Failure? && r.error.Fail? ==> !r.error.error.CannotReadFile?
  {
    match p.test
    case NoTest => Success(st)
    case RegexTest(re) =>
      var found :- Collect(env, re, p.replace, st.code);
      Success(st.(pending := st.pending + found, counts := st.counts.(regex := st.counts.regex + |found|)))
    case LiteralTest(s) =>
      if |s| == 0 then
        // `indexOf('')` never returns -1: the loop either throws at position 0 or never ends.
        var _ :- Hit(env, id, p.replace, st.buffer, 0, 0);
        Failure(Diverge)
      else
        var positions := LiteralPositions(st.code, s);
        var b :- HitAll(env, id, p.replace, st.buffer, positions, |s|);
        Success(st.(buffer := b, counts := st.counts.(literal := st.counts.literal + |positions|)))
  }

  /** One entry of `contents` (src/index.js:170-259): the gates, then content, transform and test. */
  function ApplyPattern(env: Env, id: String, p: Pattern, st: PassState): (r: Result<PassState, Halt>)
    requires Coherent(st)
    ensures r.Success? ==> Coherent(r.value) && Below(st.counts, r.value.counts)
    ensures r.Success? ==> |r.value.pending| >= |st.pending| && r.value.pending[..|st.pending|] == st.pending
    ensures r.Success? && Total(r.value.counts) == Total(st.counts) ==> r.value == st
    ensures r.Success? && r.value.code != st.code ==> r.value.counts.content + r.value.counts.transform > st.counts.content + st.counts.transform
    ensures !env.holds(p.filter, id) ==> r == Success(st)
    ensures p.matcher.Some? && !env.holds(p.matcher.value, id) ==> r == Success(st)
  {
    if !env.holds(p.filter, id) then Success(st)
    else if p.matcher.Some? && !env.holds(p.matcher.value, id) then Success(st)
    else
      var a :- ContentStep(env, id, p, st);
      var b := TransformStep(env, id, p, a);
      TestStep(env, id, p, b)
  }

  /**
   * `contents.forEach(...)` over the whole list. Across the patterns the counts only
   * grow, the queue only grows at its end, the code changes only through a counted
   * content or transform swap, and a run that counts nothing changes nothing (which is
   * what makes the early exit at src/index.js:262 safe).
   */
  function ApplyAll(env: Env, id: String, ps: seq<Pattern>, st: PassState): (r: Result<PassState, Halt>)
    requires Coherent(st)
    ensures r.Success? ==> Coherent(r.value) && Below(st.counts, r.value.counts)
    ensures r.Success? ==> |r.value.pending| >= |st.pending| && r.value.pending[..|st.pending|] == st.pending
    ensures r.Success? && Total(r.value.counts) == Total(st.counts) ==> r.value == st
    ensures r.Success? && r.value.code != st.code ==>
      r.value.counts.content + r.value.counts.transform > st.counts.content + st.counts.transform
    decreases |ps|
  {
    if |ps| == 0 then Success(st)
    else
      var next :- ApplyPattern(env, id, ps[0], st);
      var r := ApplyAll(env, id, ps[1..], next);
      assert r.Success? ==> r.value.pending[..|next.pending|][..|st.pending|] == r.value.pending[..|st.pending|];
      r
  }

  /** The outer replacements of a pass, left to right (src/index.js:271-282). */
  function PlaceAll(b: Buffer, applied: seq<Pending>): (r: Result<Buffer, Halt>)
    requires Valid(b)
    ensures r.Success? ==> Valid(r.value) && r.value.text == b.text
    ensures r.Success? ==> |r.value.edits| == |b.edits| + |applied|
    ensures r.Success? ==> forall e :: e in b.edits ==> e in r.value.edits
    ensures r.Success? ==> forall x :: x in applied ==> EditOf(x) in r.value.edits
    ensures r.Failure? ==> r.error == Fail(EditRejected)
    decreases |applied|
  {
    if |applied| == 0 then Success(b)
    else
      var b' :- Place(b, applied[0].start, applied[0].end, applied[0].str);
      assert |b'.edits| == |b.edits| + 1 by {
        assert |multiset(b'.edits)| == |multiset(b.edits)| + 1;
      }
      assert forall e :: e in b.edits ==> e in b'.edits by {
        forall e | e in b.edits ensures e in b'.edits { assert multiset(b'.edits)[e] > 0; }
      }
      assert EditOf(applied[0]) in b'.edits by { assert multiset(b'.edits)[EditOf(applied[0])] > 0; }
      var r := PlaceAll(b', applied[1..]);
      assert r.Success? ==> forall x :: x in applied ==> EditOf(x) in r.value.edits by {
        if r.Success? {
          forall x | x in applied ensures EditOf(x) in r.value.edits {
            if x != applied[0] { assert x in applied[1..]; }
          }
        }
      }
      r
  }

  /** The overwrite a queued replacement becomes. */
  function EditOf(x: Pending): Edit
  {
    Edit(x.start, x.end, x.str)
  }

  /** What one pass returns: `undefined` (nothing fired) or `{ code }` and whether to go again. */
  datatype PassResult = Untouched | Output(code: String, retry: bool)

  /** The end of a pass (src/index.js:261-292): the early exit, then the queued replacements. */
  function Finish(st: PassState): (r: Result<PassResult, Halt>)
    requires Coherent(st)
    ensures r == Success(Untouched) <==> Total(st.counts) == 0
    ensures r.Failure? ==> r.error == Fail(EditRejected)
    ensures Total(st.counts) > 0 && |st.pending| == 0 ==> r == Success(Output(Render(st.buffer), false))
  {
    if Total(st.counts) == 0 then Success(Untouched)
    else
      var sel := Resolve.Resolve(st.pending);
      var b :- PlaceAll(st.buffer, sel.applied);
      Success(Output(Render(b), sel.retry))
  }

  /**
   * A pass that completes asks for another exactly when its queue held a replacement
   * strictly inside another one (src/index.js:265-283).
   */
  lemma RetryIffNested(st: PassState)
    requires Coherent(st) && Finish(st).Success? && Finish(st).value.Output?
    ensures Finish(st).value.retry <==> exists x, y :: x in st.pending && y in st.pending && Inside(x, y)
  {
    var sel := Resolve.Resolve(st.pending);
    PartMembers(sel, st.pending);
    assert |sel.applied| + |sel.deferred| == |st.pending| by {
      assert |multiset(sel.applied) + multiset(sel.deferred)| == |multiset(st.pending)|;
    }
    if sel.retry {
      DeferredWitness(sel, st.pending);
    } else {
      var b := PlaceAll(st.buffer, sel.applied).value;
      assert multiset(sel.applied) == multiset(st.pending);
      forall x, y | x in st.pending && y in st.pending ensures !Inside(x, y) {
        assert multiset(sel.applied)[x] > 0 && multiset(sel.applied)[y] > 0;
        if x != y {
          ValidApart(b, EditOf(x), EditOf(y));
        }
      }
    }
  }
}

=== FILE: hook.dfy ===
/**
 * The `transform(code, id)` hook around the passes (src/index.js:147-295): the global
 * filter, the empty-contents exit, and the `do ... while` that runs a pass again while
 * nested replacements were deferred, at most `MAX_PASSES + 1` times.
 */
module Hook {
  import opened Outcomes
  import opened Text
  import opened Patterns
  import opened Host
  import opened Engine

  /** `const MAX_PASSES = 10`; the loop condition `pass++ < MAX_PASSES` allows one pass more. */
  const MAX_PASSES: nat := 10

  /** Every pattern of one pass over `code`, from a fresh buffer (src/index.js:163-259). */
  function Sweep(env: Env, id: String, ps: seq<Pattern>, code: String): (r: Result<PassState, Halt>)
    ensures r.Success? ==> Coherent(r.value)
    ensures r.Success? && Total(r.value.counts) == 0 ==> r.value == Start(code)
    ensures r.Success? && r.value.code != code ==> r.value.counts.content + r.value.counts.transform > 0
  {
    ApplyAll(env, id, ps, Start(code))
  }

  function Conclude(st: Result<PassState, Halt>): (r: Result<PassResult, Halt>)
    requires st.Success? ==> Coherent(st.value)
    ensures st.Failure? ==> r == Failure(st.error)
    ensures r == Success(Untouched) <==> st.Success? && Total(st.value.counts) == 0
  {
    if st.Failure? then Failure(st.error) else Finish(st.value)
  }

  /** The body of the `do ... while` (src/index.js:163-292). */
  function RunPass(env: Env, id: String, ps: seq<Pattern>, code: String): (r: Result<PassResult, Halt>)
    ensures r == Success(Untouched) <==> Sweep(env, id, ps, code) == Success(Start(code))
  {
    Conclude(Sweep(env, id, ps, code))
  }

  /** What the hook returns: `undefined`, or `{ code }` (the source map is not modelled). */
  datatype Outcome = Unchanged | Changed(code: String)

  /** How the loop ended, and how many pass bodies ran. */
  datatype Run = Run(outcome: Outcome, passes: nat)

  /** One pass body as the loop sees it: the code in, the pass result out. */
  type Step = String -> Result<PassResult, Halt>

  /**
   * The `do ... while (pass++ < MAX_PASSES && retry)` loop from pass number `pass` on.
   * A pass in which nothing fired returns `undefined` at once, whatever earlier passes
   * produced; otherwise the loop goes on only while a pass deferred a nested replacement
   * and the limit is not reached.
   */
  function Passes(step: Step, code: String, pass: nat): (r: Result<Run, Halt>)
    requires pass <= MAX_PASSES
    ensures r.Success? ==> 1 <= r.value.passes <= MAX_PASSES + 1 - pass
    decreases MAX_PASSES - pass
  {
    var out :- step(code);
    match out
    case Untouched => Success(Run(Unchanged, 1))
    case Output(next, retry) =>
      if pass < MAX_PASSES && retry then
        var rest :- Passes(step, next, pass + 1);
        Success(Run(rest.outcome, rest.passes + 1))
      else
        Success(Run(Changed(next), 1))
  }

  /** The pass body of one hook call. */
  function PassOf(env: Env, id: String, ps: seq<Pattern>): Step
  {
    code => RunPass(env, id, ps, code)
  }

  /** What the hook returns once the loop has ended. */
  function OutcomeOf(r: Result<Run, Halt>): Result<Outcome, Halt>
  {
    if r.Failure? then Failure(r.error) else Success(r.value.outcome)
  }

  /** `plugin.transform(code, id)` (src/index.js:147-295). */
  function Transform(env: Env, plugin: Plugin, code: String, id: String): (r: Result<Outcome, Halt>)
    ensures !env.holds(plugin.filter, id) ==> r == Success(Unchanged)
    ensures |plugin.contents| == 0 ==> r == Success(Unchanged)
  {
    if !env.holds(plugin.filter, id) || |plugin.contents| == 0 then Success(Unchanged)
    else OutcomeOf(Passes(PassOf(env, id, plugin.contents), code, 0))
  }

  /** The hook written as the source writes it, with a loop; it agrees with `Transform`. */
  method TransformLoop(env: Env, plugin: Plugin, code: String, id: String) returns (r: Result<Outcome, Halt>)
    ensures r == Transform(env, plugin, code, id)
  {
    if !env.holds(plugin.filter, id) || |plugin.contents| == 0 {
      return Success(Unchanged);
    }
    var ps := plugin.contents;
    var step := PassOf(env, id, ps);
    var current := code;
    var pass := 0;
    assert Transform(env, plugin, code, id) == OutcomeOf(Passes(step, code, 0));
    while true
      invariant pass <= MAX_PASSES
      invariant OutcomeOf(Passes(step, code, 0)) == OutcomeOf(Passes(step, current, pass))
      decreases MAX_PASSES - pass
    {
      var out := step(current);
      PassEnds(step, current, pass);
      if out.Failure? {
        return Failure(out.error);
      }
      match out.value
      case Untouched =>
        return Success(Unchanged);
      case Output(next, retry) =>
        if !(pass < MAX_PASSES && retry) {
          return Success(Changed(next));
        }
        RetryHandsOn(step, current, pass, next);
        current := next;
        pass := pass + 1;
    }
  }

  /** How the loop ends at a pass that fails, changes nothing, or does not ask for another. */
  lemma PassEnds(step: Step, code: String, pass: nat)
    requires pass <= MAX_PASSES
    ensures step(code).Failure? ==> OutcomeOf(Passes(step, code, pass)) == Failure(step(code).error)
    ensures step(code) == Success(Untouched) ==> OutcomeOf(Passes(step, code, pass)) == Success(Unchanged)
    ensures step(code).Success? && step(code).value.Output? && !(pass < MAX_PASSES && step(code).value.retry) ==>
      OutcomeOf(Passes(step, code, pass)) == Success(Changed(step(code).value.code))
  {
  }

  /** A pass that asks for another below the limit hands its output to the next pass. */
  lemma RetryHandsOn(step: Step, code: String, pass: nat, next: String)
    requires pass < MAX_PASSES
    requires step(code) == Success(Output(next, true))
    ensures OutcomeOf(Passes(step, code, pass)) == OutcomeOf(Passes(step, next, pass + 1))
  {
  }

  /** The last pass, number `pass`, ends the loop with `outcome`. */
  predicate Ends(last: Result<PassResult, Halt>, pass: nat, outcome: Outcome)
  {
    last.Success? &&
    match last.value
    case Untouched => outcome == Unchanged
    case Output(c, retry) => outcome == Changed(c) && (retry ==> pass == MAX_PASSES)
  }

  /**
   * `codes` are the inputs of consecutive passes numbered from `pass` on: every pass but
   * the last asks for another and hands its output to the next, and the last one ends
   * the loop with `outcome`.
   */
  ghost predicate Trace(step: Step, codes: seq<String>, pass: nat, outcome: Outcome)
  {
    |codes| > 0 && pass + |codes| <= MAX_PASSES + 1
    && (forall k :: 0 <= k < |codes| - 1 ==> step(codes[k]) == Success(Output(codes[k + 1], true)))
    && Ends(step(codes[|codes| - 1]), pass + |codes| - 1, outcome)
  }

  lemma TraceCons(step: Step, code: String, codes: seq<String>, pass: nat, outcome: Outcome)
    requires Trace(step, codes, pass + 1, outcome)
    requires step(code) == Success(Output(codes[0], true))
    ensures Trace(step, [code] + codes, pass, outcome)
  {
    var all := [code] + codes;
    forall k | 0 <= k < |all| - 1 ensures step(all[k]) == Success(Output(all[k + 1], true)) {
      if k > 0 {
        assert all[k] == codes[k - 1] && all[k + 1] == codes[k];
      }
    }
    assert all[|all| - 1] == codes[|codes| - 1];
  }

  lemma TraceTail(step: Step, codes: seq<String>, pass: nat, outcome: Outcome)
    requires Trace(step, codes, pass, outcome) && |codes| > 1
    ensures pass < MAX_PASSES
    ensures step(codes[0]) == Success(Output(codes[1], true))
    ensures Trace(step, codes[1..], pass + 1, outcome)
  {
    var rest := codes[1..];
    forall k | 0 <= k < |rest| - 1 ensures step(rest[k]) == Success(Output(rest[k + 1], true)) {
      assert rest[k] == codes[k + 1] && rest[k + 1] == codes[k + 2];
    }
    assert rest[|rest| - 1] == codes[|codes| - 1];
  }

  /**
   * The loop returns `outcome` after `n` passes exactly when the `n` pass inputs form a
   * trace: in particular a pass in which nothing fires makes the whole hook return
   * `undefined`, even after earlier passes changed the code.
   */
  lemma PassesTrace(step: Step, code: String, pass: nat, outcome: Outcome, n: nat)
    requires pass <= MAX_PASSES
    ensures Passes(step, code, pass) == Success(Run(outcome, n))
      <==> exists codes :: Trace(step, codes, pass, outcome) && codes[0] == code && |codes| == n
  {
    if Passes(step, code, pass) == Success(Run(outcome, n)) {
      PassesToTrace(step, code, pass, outcome, n);
    }
    if exists codes :: Trace(step, codes, pass, outcome) && codes[0] == code && |codes| == n {
      var codes :| Trace(step, codes, pass, outcome) && codes[0] == code && |codes| == n;
      TraceToPasses(step, codes, pass, outcome);
    }
  }

  lemma {:induction false} PassesToTrace(step: Step, code: String, pass: nat, outcome: Outcome, n: nat)
    requires pass <= MAX_PASSES
    requires Passes(step, code, pass) == Success(Run(outcome, n))
    ensures exists codes :: Trace(step, codes, pass, outcome) && codes[0] == code && |codes| == n
    decreases MAX_PASSES - pass
  {
    var out := step(code);
    if out.value.Output? && pass < MAX_PASSES && out.value.retry {
      var next := out.value.code;
      PassesToTrace(step, next, pass + 1, outcome, n - 1);
      var codes :| Trace(step, codes, pass + 1, outcome) && codes[0] == next && |codes| == n - 1;
      TraceCons(step, code, codes, pass, outcome);
      assert ([code] + codes)[0] == code;
    } else {
      assert Trace(step, [code], pass, outcome);
    }
  }

  lemma {:induction false} TraceToPasses(step: Step, codes: seq<String>, pass: nat, outcome: Outcome)
    requires Trace(step, codes, pass, outcome)
    ensures pass <= MAX_PASSES
    ensures Passes(step, codes[0], pass) == Success(Run(outcome, |codes|))
    decreases |codes|
  {
    if |codes| > 1 {
      TraceTail(step, codes, pass, outcome);
      TraceToPasses(step, codes[1..], pass + 1, outcome);
      assert codes[1..][0] == codes[1];
    }
  }

  /**
   * A pass that fires nothing after one that did makes the hook return `undefined`, so
   * the earlier pass's output is lost: a disabled outer block holding only a nested
   * block is removed by the first pass, the second finds nothing, and the block stays.
   */
  lemma DiscardsEarlierOutput(step: Step, code: String, next: String)
    requires step(code) == Success(Output(next, true))
    requires step(next) == Success(Untouched)
    ensures Passes(step, code, 0) == Success(Run(Unchanged, 2))
    ensures PassesIntended(step, code, 0) == Success(Run(Changed(next), 2))
  {
    assert Trace(step, [code, next], 0, Unchanged);
    PassesTrace(step, code, 0, Unchanged, 2);
  }

  /**
   * The loop with the early exit `!(pass + c + t + r + s)` of the published build: only
   * the first pass can end in `undefined`; a later pass in which nothing fires ends the
   * loop with the code it was given.
   */
  function PassesIntended(step: Step, code: String, pass: nat): (r: Result<Run, Halt>)
    requires pass <= MAX_PASSES
    ensures r.Success? ==> 1 <= r.value.passes <= MAX_PASSES + 1 - pass
    ensures r.Success? && r.value.outcome == Unchanged <==> pass == 0 && step(code) == Success(Untouched)
    decreases MAX_PASSES - pass
  {
    var out :- step(code);
    match out
    case Untouched => Success(Run(if pass == 0 then Unchanged else Changed(code), 1))
    case Output(next, retry) =>
      if pass < MAX_PASSES && retry then
        var rest :- PassesIntended(step, next, pass + 1);
        Success(Run(rest.outcome, rest.passes + 1))
      else
        Success(Run(Changed(next), 1))
  }

  /** The two loops agree whenever the loop as written does not end in `undefined`. */
  lemma {:induction false} IntendedAgrees(step: Step, code: String, pass: nat)
    requires pass <= MAX_PASSES
    ensures Passes(step, code, pass).Failure? || Passes(step, code, pass).value.outcome.Changed? ==>
      PassesIntended(step, code, pass) == Passes(step, code, pass)
    decreases MAX_PASSES - pass
  {
    var out := step(code);
    if out.Success? && out.value.Output? && pass < MAX_PASSES && out.value.retry {
      IntendedAgrees(step, out.value.code, pass + 1);
    }
  }

  /** `plugin.transform(code, id)` with the published build's early exit. */
  function TransformIntended(env: Env, plugin: Plugin, code: String, id: String): (r: Result<Outcome, Halt>)
    ensures r == Success(Unchanged) <==>
      !env.holds(plugin.filter, id) || |plugin.contents| == 0 || RunPass(env, id, plugin.contents, code) == Success(Untouched)
    ensures env.holds(plugin.filter, id) && |plugin.contents| > 0 && Transform(env, plugin, code, id) != Success(Unchanged) ==>
      r == Transform(env, plugin, code, id)
  {
    if !env.holds(plugin.filter, id) || |plugin.contents| == 0 then Success(Unchanged)
    else
      var step := PassOf(env, id, plugin.contents);
      IntendedAgrees(step, code, 0);
      OutcomeOf(PassesIntended(step, code, 0))
  }
}

=== FILE: host.dfy ===
/**
 * Everything the transform hook calls but this model does not define: the regular
 * expression engine, the user's functions, the id filters and the file system.
 */
module Host {
  import opened Outcomes
  import opened Text
  import opened Regex
  import opened Patterns

  datatype Env = Env(
    /** Anchored attempt of a regular expression; `exec` is defined from it. */
    attempt: Attempt,
    /** A user function applied to its arguments; `None` when it returns a non-string. */
    call: (FnKey, seq<Option<String>>) -> Option<String>,
    /** `createFilter(...)(id)` and the `match` forms. */
    holds: (Gate, String) -> bool,
    /** `fs.readFileSync(resolve(id, '../', file)).toString()`; `None` when it throws. */
    readFile: (String, String) -> Option<String>)

  /** The errors the hook throws. */
  datatype Error =
    | CannotReadFile(id: String, file: String)
    | ReplaceNotString
    | ReplaceNotFunction
    | EditRejected

  /** Why a transform does not return: it throws, or it never finishes. */
  datatype Halt = Fail(error: Error) | Diverge
}

=== FILE: literal.dfy ===
/**
 * What a literal test with a string replacement does to a fresh buffer
 * (src/index.js:239-257): every occurrence of the test string is overwritten in
 * turn, so the pass output is the text with each occurrence replaced, as
 * `code.split(test).join(replace)` would give when no two occurrences overlap.
 */
module Literal {
  import opened Text
  import opened Patterns
  import opened Host
  import opened Buffer
  import opened Scan
  import opened Engine

  /**
   * The reference, `code.slice(from).split(pat).join(t)`: scanning left to right, each
   * occurrence of `pat` is replaced by `t` and scanning resumes after it, so replaced
   * occurrences never overlap.
   */
  function SplitJoin(code: String, pat: String, t: String, from: nat): String
    requires |pat| > 0 && from <= |code|
    decreases |code| - from
  {
    if OccursAt(code, pat, from) then t + SplitJoin(code, pat, t, from + |pat|)
    else if from == |code| then []
    else [code[from]] + SplitJoin(code, pat, t, from + 1)
  }

  /** The overwrites of the occurrences at `ps`, each `len` long, by `t`. */
  function EditsAt(ps: seq<nat>, len: nat, t: String): (r: seq<Edit>)
    ensures |r| == |ps|
    ensures forall k :: 0 <= k < |ps| ==> r[k] == Edit(ps[k], ps[k] + len, t)
  {
    if |ps| == 0 then [] else [Edit(ps[0], ps[0] + len, t)] + EditsAt(ps[1..], len, t)
  }

  /** Every edit starts before `x`. */
  predicate StartBefore(edits: seq<Edit>, x: nat)
  {
    forall k :: 0 <= k < |edits| ==> edits[k].start < x
  }

  /**
   * One step of `HitAll` with a string replacement: the first overwrite appends its edit,
   * and the rest of the loop runs on the buffer it gives.
   */
  lemma HitStep(env: Env, id: String, t: String, b: Buffer, ps: seq<nat>, len: nat) returns (b': Buffer)
    requires Valid(b) && |ps| > 0 && StartBefore(b.edits, ps[0]) && (|ps| > 1 ==> ps[0] < ps[1])
    requires HitAll(env, id, StringReplace(t), b, ps, len).Success?
    ensures Valid(b') && b'.edits == b.edits + [Edit(ps[0], ps[0] + len, t)]
    ensures HitAll(env, id, StringReplace(t), b, ps, len) == HitAll(env, id, StringReplace(t), b', ps[1..], len)
    ensures |ps| > 1 ==> StartBefore(b'.edits, ps[1..][0])
  {
    HitUnfold(env, id, t, b, ps, len);
    OverwriteAppends(b, ps[0], ps[0] + len, t);
    b' := Overwrite(b, ps[0], ps[0] + len, t).value;
    if |ps| > 1 {
      StartsBelow(b.edits, b'.edits, ps, len, t);
    }
  }

  lemma HitUnfold(env: Env, id: String, t: String, b: Buffer, ps: seq<nat>, len: nat)
    requires Valid(b) && |ps| > 0
    requires HitAll(env, id, StringReplace(t), b, ps, len).Success?
    ensures Overwrite(b, ps[0], ps[0] + len, t).Some?
    ensures var b' := Overwrite(b, ps[0], ps[0] + len, t).value;
      Valid(b') && HitAll(env, id, StringReplace(t), b, ps, len) == HitAll(env, id, StringReplace(t), b', ps[1..], len)
  {
  }

  /** The next position is still past every edit once the first one is appended. */
  lemma StartsBelow(edits: seq<Edit>, mid: seq<Edit>, ps: seq<nat>, len: nat, t: String)
    requires |ps| > 1 && ps[0] < ps[1] && StartBefore(edits, ps[0])
    requires mid == edits + [Edit(ps[0], ps[0] + len, t)]
    ensures StartBefore(mid, ps[1..][0])
  {
  }

  /**
   * On success, a string replacement over increasing positions appends one overwrite
   * per position, in order, after the edits already there.
   */
  lemma {:induction false} HitAllAppends(env: Env, id: String, t: String, b: Buffer, ps: seq<nat>, len: nat)
    requires Valid(b) && StrictlyIncreasing(ps)
    requires |ps| > 0 ==> StartBefore(b.edits, ps[0])
    requires HitAll(env, id, StringReplace(t), b, ps, len).Success?
    ensures HitAll(env, id, StringReplace(t), b, ps, len).value.edits == b.edits + EditsAt(ps, len, t)
    decreases |ps|
  {
    if |ps| > 0 {
      IncreasingTail(ps);
      var b' := HitStep(env, id, t, b, ps, len);
      HitAllAppends(env, id, t, b', ps[1..], len);
      AppendHead(b.edits, b'.edits, ps, len, t);
    }
  }

  lemma IncreasingTail(ps: seq<nat>)
    requires |ps| > 0 && StrictlyIncreasing(ps)
    ensures StrictlyIncreasing(ps[1..]) && (|ps| > 1 ==> ps[0] < ps[1])
  {
  }

  lemma AppendHead(edits: seq<Edit>, mid: seq<Edit>, ps: seq<nat>, len: nat, t: String)
    requires |ps| > 0 && mid == edits + [Edit(ps[0], ps[0] + len, t)]
    ensures edits + EditsAt(ps, len, t) == mid + EditsAt(ps[1..], len, t)
  {
    var e := Edit(ps[0], ps[0] + len, t);
    var rest := EditsAt(ps[1..], len, t);
    assert EditsAt(ps, len, t) == [e] + rest;
    assert edits + ([e] + rest) == (edits + [e]) + rest;
  }

  /** `ps` lists, in increasing order, exactly the occurrences of `pat` at or after `from`. */
  ghost predicate Scanned(code: String, pat: String, ps: seq<nat>, from: nat)
  {
    StrictlyIncreasing(ps) && forall i: nat :: Listed(ps, i) <==> Found(code, pat, from, i)
  }

  predicate Listed(ps: seq<nat>, i: nat)
  {
    i in ps
  }

  /** `pat` occurs at `i`, at or after `from`. */
  predicate Found(code: String, pat: String, from: nat, i: nat)
  {
    from <= i && OccursAt(code, pat, i)
  }

  /** Nothing is listed before the first occurrence at or after `from`. */
  lemma ScannedFirst(code: String, pat: String, ps: seq<nat>, from: nat)
    requires Scanned(code, pat, ps, from)
    ensures OccursAt(code, pat, from) <==> |ps| > 0 && ps[0] == from
    ensures |ps| > 0 ==> from <= ps[0]
  {
    if |ps| > 0 {
      assert Listed(ps, ps[0]);
    }
    if OccursAt(code, pat, from) {
      assert Found(code, pat, from, from);
    }
  }

  /** Without an occurrence at `from`, the same list is the scan from the next index. */
  lemma ScannedSkip(code: String, pat: String, ps: seq<nat>, from: nat)
    requires Scanned(code, pat, ps, from) && !OccursAt(code, pat, from)
    ensures Scanned(code, pat, ps, from + 1)
  {
    forall i: nat ensures Listed(ps, i) <==> Found(code, pat, from + 1, i) {
      if Listed(ps, i) {
        assert Found(code, pat, from, i);
      }
      if Found(code, pat, from + 1, i) {
        assert Found(code, pat, from, i);
      }
    }
  }

  /**
   * When the overwrites of the listed occurrences do not overlap, the rest of the list
   * is exactly the occurrences past the end of the first one.
   */
  lemma ScannedRest(code: String, pat: String, t: String, ps: seq<nat>, from: nat)
    requires |pat| > 0 && |ps| > 0 && Scanned(code, pat, ps, from)
    requires Ordered(EditsAt(ps, |pat|, t), from, |code|)
    ensures ps[0] + |pat| <= |code|
    ensures Scanned(code, pat, ps[1..], ps[0] + |pat|)
    ensures Ordered(EditsAt(ps[1..], |pat|, t), ps[0] + |pat|, |code|)
  {
    var es := EditsAt(ps, |pat|, t);
    OrderedHead(es, from, |code|);
    var rest := ps[1..];
    forall i: nat ensures Listed(rest, i) <==> Found(code, pat, ps[0] + |pat|, i) {
      if i in rest {
        var k :| 0 <= k < |rest| && rest[k] == i;
        assert ps[1] <= ps[k + 1];
        assert Listed(ps, ps[k + 1]);
      }
      if ps[0] + |pat| <= i && OccursAt(code, pat, i) {
        assert Found(code, pat, from, i);
        var k :| 0 <= k < |ps| && ps[k] == i;
        assert k != 0;
        assert rest[k - 1] == i;
      }
    }
  }

  /** The overwrites of the listed occurrences, spliced in, are the reference replacement. */
  lemma {:induction false} SpliceIsSplitJoin(code: String, pat: String, t: String, ps: seq<nat>, from: nat)
    requires |pat| > 0 && from <= |code| && Scanned(code, pat, ps, from)
    requires Ordered(EditsAt(ps, |pat|, t), from, |code|)
    ensures Splice(code, EditsAt(ps, |pat|, t), from) == SplitJoin(code, pat, t, from)
    decreases |code| - from, 1
  {
    if OccursAt(code, pat, from) {
      SpliceReplaces(code, pat, t, ps, from);
    } else if from == |code| {
      SpliceAtEnd(code, pat, t, ps, from);
    } else {
      SpliceCopies(code, pat, t, ps, from);
    }
  }

  /** At an occurrence, both put `t` in its place and go on after it. */
  lemma {:induction false} SpliceReplaces(code: String, pat: String, t: String, ps: seq<nat>, from: nat)
    requires |pat| > 0 && from <= |code| && Scanned(code, pat, ps, from) && OccursAt(code, pat, from)
    requires Ordered(EditsAt(ps, |pat|, t), from, |code|)
    ensures Splice(code, EditsAt(ps, |pat|, t), from) == SplitJoin(code, pat, t, from)
    decreases |code| - from, 0
  {
    ScannedFirst(code, pat, ps, from);
    ScannedRest(code, pat, t, ps, from);
    SpliceIsSplitJoin(code, pat, t, ps[1..], from + |pat|);
    SpliceAt(code, ps, |pat|, t, from);
    SplitJoinAt(code, pat, t, from);
  }

  /** Elsewhere, both copy the character at `from` and go on from the next one. */
  lemma {:induction false} SpliceCopies(code: String, pat: String, t: String, ps: seq<nat>, from: nat)
    requires |pat| > 0 && from < |code| && Scanned(code, pat, ps, from) && !OccursAt(code, pat, from)
    requires Ordered(EditsAt(ps, |pat|, t), from, |code|)
    ensures Splice(code, EditsAt(ps, |pat|, t), from) == SplitJoin(code, pat, t, from)
    decreases |code| - from, 0
  {
    ScannedFirst(code, pat, ps, from);
    ScannedSkip(code, pat, ps, from);
    SpliceStep(code, ps, |pat|, t, from);
    SpliceIsSplitJoin(code, pat, t, ps, from + 1);
    SplitJoinStep(code, pat, t, from);
  }

  /** An overwrite at `from` is spliced in first. */
  lemma SpliceAt(code: String, ps: seq<nat>, len: nat, t: String, from: nat)
    requires |ps| > 0 && ps[0] == from && from <= |code| && Ordered(EditsAt(ps, len, t), from, |code|)
    ensures from + len <= |code| && Ordered(EditsAt(ps[1..], len, t), from + len, |code|)
    ensures Splice(code, EditsAt(ps, len, t), from) == t + Splice(code, EditsAt(ps[1..], len, t), from + len)
  {
    var es := EditsAt(ps, len, t);
    assert es[1..] == EditsAt(ps[1..], len, t);
    assert code[from..from] == [];
  }

  lemma SplitJoinAt(code: String, pat: String, t: String, from: nat)
    requires |pat| > 0 && from <= |code| && OccursAt(code, pat, from)
    ensures SplitJoin(code, pat, t, from) == t + SplitJoin(code, pat, t, from + |pat|)
  {
  }

  lemma SplitJoinStep(code: String, pat: String, t: String, from: nat)
    requires |pat| > 0 && from < |code| && !OccursAt(code, pat, from)
    ensures SplitJoin(code, pat, t, from) == [code[from]] + SplitJoin(code, pat, t, from + 1)
  {
  }

  lemma SpliceAtEnd(code: String, pat: String, t: String, ps: seq<nat>, from: nat)
    requires |pat| > 0 && from == |code| && Scanned(code, pat, ps, from)
    ensures Ordered(EditsAt(ps, |pat|, t), from, |code|) ==> Splice(code, EditsAt(ps, |pat|, t), from) == SplitJoin(code, pat, t, from)
  {
    if |ps| > 0 {
      assert Listed(ps, ps[0]);
    }
  }

  /** Before the first overwrite, `Splice` copies the text one character at a time. */
  lemma SpliceStep(code: String, ps: seq<nat>, len: nat, t: String, from: nat)
    requires from < |code| && Ordered(EditsAt(ps, len, t), from, |code|)
    requires |ps| > 0 ==> from < ps[0]
    ensures Ordered(EditsAt(ps, len, t), from + 1, |code|)
    ensures Splice(code, EditsAt(ps, len, t), from) == [code[from]] + Splice(code, EditsAt(ps, len, t), from + 1)
  {
    var es := EditsAt(ps, len, t);
    if |es| > 0 {
      assert code[from..es[0].start] == [code[from]] + code[from + 1..es[0].start];
    } else {
      assert code[from..] == [code[from]] + code[from + 1..];
    }
  }

  /** The literal scan lists every occurrence. */
  lemma LiteralScanned(code: String, pat: String)
    requires |pat| > 0
    ensures Scanned(code, pat, LiteralPositions(code, pat), 0)
  {
    var ps := LiteralPositions(code, pat);
    forall i: nat ensures Listed(ps, i) <==> Found(code, pat, 0, i) {
    }
  }

  /**
   * A literal test with a string replacement, run on a fresh buffer, renders as the text
   * with every occurrence of the test replaced; when two occurrences overlap the second
   * overwrite is rejected, so a successful run means they do not.
   */
  lemma LiteralReplaceRenders(env: Env, id: String, code: String, pat: String, t: String)
    requires |pat| > 0
    requires HitAll(env, id, StringReplace(t), Fresh(code), LiteralPositions(code, pat), |pat|).Success?
    ensures Render(HitAll(env, id, StringReplace(t), Fresh(code), LiteralPositions(code, pat), |pat|).value)
      == SplitJoin(code, pat, t, 0)
  {
    var ps := LiteralPositions(code, pat);
    var r := HitAll(env, id, StringReplace(t), Fresh(code), ps, |pat|).value;
    HitAllAppends(env, id, t, Fresh(code), ps, |pat|);
    assert r.edits == EditsAt(ps, |pat|, t);
    LiteralScanned(code, pat);
    SpliceIsSplitJoin(code, pat, t, ps, 0);
  }

  /**
   * A successful literal replacement means no two occurrences overlapped: each one ends
   * before the next begins, since an overlapping overwrite is rejected.
   */
  lemma LiteralReplaceApart(env: Env, id: String, code: String, pat: String, t: String)
    requires |pat| > 0
    requires HitAll(env, id, StringReplace(t), Fresh(code), LiteralPositions(code, pat), |pat|).Success?
    ensures var ps := LiteralPositions(code, pat);
      forall i, j :: 0 <= i < j < |ps| ==> ps[i] + |pat| <= ps[j]
  {
    var ps := LiteralPositions(code, pat);
    var r := HitAll(env, id, StringReplace(t), Fresh(code), ps, |pat|).value;
    HitAllAppends(env, id, t, Fresh(code), ps, |pat|);
    assert r.edits == EditsAt(ps, |pat|, t);
    OrderedApart(r.edits, 0, |code|);
  }
}

=== FILE: outcomes.dfy ===
/** Failure-compatible wrappers shared by every module of the model. */
module Outcomes {

  /** A value that may be absent; stands for JavaScript's `undefined`/`null`. */
  datatype Option<+T> = None | Some(value: T)

  /** Either a computed value or the reason the computation stopped. */
  datatype Result<+T, +E> = Success(value: T) | Failure(error: E) {

    predicate IsFailure() {
      Failure?
    }

    function PropagateFailure<U>(): Result<U, E>
      requires Failure?
    {
      Failure(error)
    }

    function Extract(): T
      requires Success?
    {
      value
    }
  }
}

=== FILE: patterns.dfy ===
/**
 * The configuration and its compilation into the ordered pattern list the
 * transform hook walks (src/index.js:13-126, 138-144).
 */
module Patterns {
  import opened Outcomes
  import opened Text
  import opened Regex
  import Template

  /** Identifies one user-supplied JavaScript function. */
  type FnKey = nat

  /** The JavaScript values an option may hold, as far as the plugin tells them apart. */
  datatype JsValue =
    | Undefined
    | Str(s: String)
    | RegExp(re: Regex)
    | Function(f: FnKey)
    | Other

  /** A predicate on the module id: `createFilter(include, exclude)` or one of the `match` forms. */
  datatype Gate =
    | Filter(includes: JsValue, excludes: JsValue)
    | MatchFunction(f: FnKey)
    | MatchRegExp(re: Regex)
    | MatchGlob(glob: String)

  /** A pattern object as the user writes it. */
  datatype RawPattern = RawPattern(
    includes: JsValue, excludes: JsValue, matches: JsValue,
    test: JsValue, replace: JsValue,
    file: JsValue, text: JsValue, transform: JsValue)

  /** What the pattern searches for. */
  datatype Test = RegexTest(re: Regex) | LiteralTest(s: String) | NoTest

  /** What a found occurrence is replaced by. */
  datatype Replace = StringReplace(template: String) | FunctionReplace(f: FnKey) | NoReplace

  /** Where a whole-content replacement comes from. */
  datatype Content = NoContent | FromFile(path: String) | FromText(text: String)

  /** A pattern after `parsePatterns`, every optional field classified once. */
  datatype Pattern = Pattern(
    filter: Gate, matcher: Option<Gate>,
    content: Content, transform: Option<FnKey>,
    test: Test, replace: Replace)

  /** `defines: { name: value }`, with `value` already read as a JavaScript truth value. */
  datatype Define = Define(name: String, enabled: bool)

  /** The options of `replace(options)`; `defines` and `replaces` in enumeration order. */
  datatype Options = Options(
    includes: JsValue, excludes: JsValue,
    defines: seq<Define>, substitutions: seq<(String, JsValue)>,
    patterns: seq<RawPattern>)

  /** The plugin object: the global filter and the compiled patterns (`contents`). */
  datatype Plugin = Plugin(filter: Gate, contents: seq<Pattern>)

  function MatcherOf(v: JsValue): Option<Gate>
  {
    match v
    case Function(f) => Some(MatchFunction(f))
    case RegExp(re) => Some(MatchRegExp(re))
    case Str(s) => Some(MatchGlob(s))
    case _ => None
  }

  function TestOf(v: JsValue): Test
  {
    match v
    case RegExp(re) => RegexTest(re)
    case Str(s) => LiteralTest(s)
    case _ => NoTest
  }

  function ReplaceOf(v: JsValue): Replace
  {
    match v
    case Str(s) => StringReplace(s)
    case Function(f) => FunctionReplace(f)
    case _ => NoReplace
  }

  /** `text` is assigned after `file`, so it wins when both are strings. */
  function ContentOf(file: JsValue, text: JsValue): Content
  {
    if text.Str? then FromText(text.s)
    else if file.Str? then FromFile(file.s)
    else NoContent
  }

  function TransformOf(v: JsValue): Option<FnKey>
  {
    if v.Function? then Some(v.f) else None
  }

  /** One step of `parsePatterns`: classify every optional field of a pattern object. */
  function ParsePattern(it: RawPattern): (p: Pattern)
    ensures p.filter == Filter(it.includes, it.excludes)
    ensures p.content.FromText? <==> it.text.Str?
    ensures p.content.FromFile? <==> it.file.Str? && !it.text.Str?
    ensures it.text.Str? ==> p.content.text == it.text.s
    ensures p.test.RegexTest? <==> it.test.RegExp?
    ensures p.test.LiteralTest? <==> it.test.Str?
    ensures p.replace.StringReplace? <==> it.replace.Str?
    ensures p.replace.FunctionReplace? <==> it.replace.Function?
    ensures p.transform.Some? <==> it.transform.Function?
    ensures p.matcher.None? <==> !(it.matches.Function? || it.matches.RegExp? || it.matches.Str?)
  {
    Pattern(
      Filter(it.includes, it.excludes), MatcherOf(it.matches),
      ContentOf(it.file, it.text), TransformOf(it.transform),
      TestOf(it.test), ReplaceOf(it.replace))
  }

  /** The shape `parsePatterns` produces. */
  predicate Compiled(p: Pattern)
  {
    p.filter.Filter? && (p.matcher.Some? ==> !p.matcher.value.Filter?)
  }

  /** A pattern object that compiles to `p`. */
  function Unparse(p: Pattern): RawPattern
    requires Compiled(p)
  {
    RawPattern(
      p.filter.includes, p.filter.excludes,
      match p.matcher
        case None => Undefined
        case Some(MatchFunction(f)) => Function(f)
        case Some(MatchRegExp(re)) => RegExp(re)
        case Some(MatchGlob(g)) => Str(g),
      match p.test
        case RegexTest(re) => RegExp(re)
        case LiteralTest(s) => Str(s)
        case NoTest => Undefined,
      match p.replace
        case StringReplace(t) => Str(t)
        case FunctionReplace(f) => Function(f)
        case NoReplace => Undefined,
      if p.content.FromFile? then Str(p.content.path) else Undefined,
      if p.content.FromText? then Str(p.content.text) else Undefined,
      if p.transform.Some? then Function(p.transform.value) else Undefined)
  }

  /** Compilation forgets nothing the engine uses: every compiled pattern is reproduced from its unparsed form. */
  lemma ParseUnparse(p: Pattern)
    requires Compiled(p)
    ensures ParsePattern(Unparse(p)) == p
  {
  }

  /** A compiled pattern always has this shape, so parsing is idempotent through `Unparse`. */
  lemma ParseIsCompiled(it: RawPattern)
    ensures Compiled(ParsePattern(it))
    ensures ParsePattern(Unparse(ParsePattern(it))) == ParsePattern(it)
  {
    ParseUnparse(ParsePattern(it));
  }

  /** The pattern object `parseDefines` pushes: a global expression and a string replacement. */
  function DefineRaw(src: Source, replace: String): RawPattern
  {
    RawPattern(Undefined, Undefined, Undefined, RegExp(Regex(src, true)), Str(replace), Undefined, Undefined, Undefined)
  }

  /** `p` is a pattern `parseDefines` pushes for `name`: a global define expression and a string replace, nothing else. */
  predicate DefineRule(p: RawPattern, name: String)
  {
    p.test.RegExp? && p.replace.Str? && !p.test.re.source.User? && p.test.re.source.name == name
    && p == DefineRaw(p.test.re.source, p.replace.s)
  }

  /**
   * The patterns of one define, in the order `parseDefines` pushes them: the `#ifdef`
   * expression first and the `#if ... #else` one last, with the marker between them when
   * the define is falsy.
   */
  function DefineBlock(d: Define): (r: seq<RawPattern>)
    ensures |r| == if d.enabled then 2 else 3
    ensures forall i :: 0 <= i < |r| ==> DefineRule(r[i], d.name)
    ensures r[0].test == RegExp(Regex(IfDef(d.name), true))
    ensures r[|r| - 1].test == RegExp(Regex(IfElse(d.name), true))
    ensures !d.enabled ==> r[1].test == RegExp(Regex(DefineMarker(d.name), true))
  {
    if d.enabled then
      [DefineRaw(IfDef(d.name), "{$1}"), DefineRaw(IfElse(d.name), "{$1}")]
    else
      [DefineRaw(IfDef(d.name), ""), DefineRaw(DefineMarker(d.name), ""), DefineRaw(IfElse(d.name), "{$2}")]
  }

  /**
   * `parseDefines`: every define's block, in enumeration order. Every pattern belongs to
   * one of the defines, and each define contributes two or three.
   */
  function DefinePatterns(ds: seq<Define>): (r: seq<RawPattern>)
    ensures 2 * |ds| <= |r| <= 3 * |ds|
    ensures forall i :: 0 <= i < |r| ==> exists k :: 0 <= k < |ds| && DefineRule(r[i], ds[k].name)
    decreases |ds|
  {
    if |ds| == 0 then []
    else
      var head := DefineBlock(ds[0]);
      var rest := DefinePatterns(ds[1..]);
      assert forall i :: 0 <= i < |rest| ==> exists k :: 0 <= k < |ds| && DefineRule(rest[i], ds[k].name) by {
        forall i | 0 <= i < |rest| ensures exists k :: 0 <= k < |ds| && DefineRule(rest[i], ds[k].name) {
          var k :| 0 <= k < |ds[1..]| && DefineRule(rest[i], ds[1..][k].name);
          assert ds[1..][k] == ds[k + 1];
        }
      }
      head + rest
  }

  /** `parseReplaces`: one literal test per entry. */
  function ReplacePatterns(rs: seq<(String, JsValue)>): (ps: seq<RawPattern>)
    ensures |ps| == |rs|
    ensures forall i :: 0 <= i < |rs| ==> ps[i].test == Str(rs[i].0) && ps[i].replace == rs[i].1
    ensures forall i :: 0 <= i < |rs| ==> ps[i].file == ps[i].text == ps[i].transform == ps[i].matches == Undefined
  {
    seq(|rs|, i requires 0 <= i < |rs| =>
      RawPattern(Undefined, Undefined, Undefined, Str(rs[i].0), rs[i].1, Undefined, Undefined, Undefined))
  }

  function ParseAll(raws: seq<RawPattern>): (ps: seq<Pattern>)
    ensures |ps| == |raws| && forall i :: 0 <= i < |raws| ==> ps[i] == ParsePattern(raws[i])
  {
    seq(|raws|, i requires 0 <= i < |raws| => ParsePattern(raws[i]))
  }

  /** `replace(options)`: user patterns, then define patterns, then replace patterns, all parsed. */
  function Configure(o: Options): (pl: Plugin)
    ensures pl.filter == Filter(o.includes, o.excludes)
    ensures |pl.contents| == |o.patterns| + |DefinePatterns(o.defines)| + |o.substitutions|
    ensures forall i :: 0 <= i < |o.patterns| ==> pl.contents[i] == ParsePattern(o.patterns[i])
    ensures forall j :: 0 <= j < |DefinePatterns(o.defines)| ==>
      pl.contents[|o.patterns| + j] == ParsePattern(DefinePatterns(o.defines)[j])
    ensures forall k :: 0 <= k < |o.substitutions| ==>
      var p := pl.contents[|o.patterns| + |DefinePatterns(o.defines)| + k];
      p.test == LiteralTest(o.substitutions[k].0) && p.replace == ReplaceOf(o.substitutions[k].1)
      && p.content == NoContent && p.transform == None && p.matcher == None
  {
    var raws := o.patterns + DefinePatterns(o.defines) + ReplacePatterns(o.substitutions);
    var n := |o.patterns| + |DefinePatterns(o.defines)|;
    assert forall k :: 0 <= k < |o.substitutions| ==> raws[n + k] == ReplacePatterns(o.substitutions)[k];
    Plugin(Filter(o.includes, o.excludes), ParseAll(raws))
  }

  /** Defines compile block by block: adding a name appends its patterns. */
  lemma {:induction false} DefinePatternsAppend(ds: seq<Define>, d: Define)
    ensures DefinePatterns(ds + [d]) == DefinePatterns(ds) + DefineBlock(d)
    decreases |ds|
  {
    if |ds| == 0 {
      assert DefinePatterns([d]) == DefineBlock(d) + DefinePatterns([]);
    } else {
      assert (ds + [d])[1..] == ds[1..] + [d];
      DefinePatternsAppend(ds[1..], d);
    }
  }

  /** Two patterns per enabled name and three per disabled one. */
  lemma {:induction false} DefinePatternsLength(ds: seq<Define>)
    ensures |DefinePatterns(ds)| == 3 * |ds| - |Enabled(ds)|
    decreases |ds|
  {
    if |ds| > 0 {
      DefinePatternsLength(ds[1..]);
    }
  }

  /** The enabled define names, in order. */
  function Enabled(ds: seq<Define>): (names: seq<String>)
    ensures |names| <= |ds|
    ensures forall n :: n in names <==> exists i :: 0 <= i < |ds| && ds[i].enabled && ds[i].name == n
  {
    if |ds| == 0 then []
    else (if ds[0].enabled then [ds[0].name] else []) + Enabled(ds[1..])
  }

  /**
   * What the define templates do to a match: an enabled name keeps the guarded body
   * (in braces) and the `then` branch; a disabled one drops the block and the marker
   * region and keeps the `else` branch.
   */
  lemma DefineTemplates(d: Define, body: String, thenPart: String, elsePart: String, whole: String, before: String, after: String)
    ensures var b := DefineBlock(d);
      var one := Template.MatchText(whole, [Some(body)], before, after);
      var two := Template.MatchText(whole, [Some(thenPart), Some(elsePart)], before, after);
      && Template.Expand(b[0].replace.s, one) == (if d.enabled then "{" + body + "}" else "")
      && Template.Expand(b[|b| - 1].replace.s, two) == "{" + (if d.enabled then thenPart else elsePart) + "}"
      && (!d.enabled ==> Template.Expand(b[1].replace.s, one) == "")
  {
    var one := Template.MatchText(whole, [Some(body)], before, after);
    var two := Template.MatchText(whole, [Some(thenPart), Some(elsePart)], before, after);
    BracedGroup("1", one, body);
    BracedGroup("1", two, thenPart);
    BracedGroup("2", two, elsePart);
    assert "{$" + "1" + "}" == "{$1}" && "{$" + "2" + "}" == "{$2}";
    assert Template.Expand("", one) == [];
    var b := DefineBlock(d);
    if d.enabled {
      assert b[0].replace.s == "{$1}" && b[|b| - 1].replace.s == "{$1}";
    } else {
      assert b[0].replace.s == "" && b[1].replace.s == "" && b[|b| - 1].replace.s == "{$2}";
    }
  }

  /** `{$n}` expands to the n-th group in braces. */
  lemma BracedGroup(d: String, m: Template.MatchText, g: String)
    requires d == "1" || d == "2"
    requires |m.groups| >= 2 || (d == "1" && |m.groups| >= 1)
    requires m.groups[if d == "1" then 0 else 1] == Some(g)
    ensures Template.Expand("{$" + d + "}", m) == "{" + g + "}"
  {
    assert Template.DigitsValue(d) == if d == "1" then 1 else 2 by {
      assert d[..|d| - 1] == [];
    }
    assert Template.Value(Template.GroupRef(d), m) == g;
    assert Template.Expand("", m) == [];
    Template.ExpandPlain('}', "", m);
    assert "}" == ['}'] + "";
    Template.ExpandGroup(d, "}", m);
    Template.ExpandPlain('{', "$" + d + "}", m);
    assert "{$" + d + "}" == ['{'] + ("$" + d + "}");
  }
}

=== FILE: regex.dfy ===
/**
 * The JavaScript regular-expression engine, reduced to what the plugin observes.
 * The engine itself is a parameter: `Attempt(source, code, p)` is the match (if any)
 * that the expression finds when anchored at position `p`. `exec` is the search for
 * the first position at or after its start where an attempt succeeds.
 */
module Regex {
  import opened Outcomes
  import opened Text

  /** Which expression: the three built from a define name (src/index.js:299-312) or a user one. */
  datatype Source =
    | IfDef(name: String)
    | IfElse(name: String)
    | DefineMarker(name: String)
    | User(key: nat)

  /** A `RegExp` object; `global` is the `g` flag. */
  datatype Regex = Regex(source: Source, global: bool)

  /** `match[0]` and `match[1..]`; a group that did not take part is `None` (`undefined`). */
  datatype Groups = Groups(whole: String, captures: seq<Option<String>>)

  /** A successful `exec`: `match.index` and the groups. */
  datatype Match = Match(index: nat, groups: Groups)
  {
    /** `match.index + match[0].length` */
    function End(): nat
    {
      index + |groups.whole|
    }
  }

  type Attempt = (Source, String, nat) -> Option<Groups>

  /** An engine whose matches are really substrings of the subject at the reported position. */
  ghost predicate Sound(attempt: Attempt)
  {
    forall src, code, p: nat ::
      attempt(src, code, p).Some? && p <= |code| ==>
        var w := attempt(src, code, p).value.whole;
        p + |w| <= |code| && code[p..p + |w|] == w
  }

  /**
   * `re.exec(code)` with `re.lastIndex == from`: the match at the first position at or
   * after `from` where the expression matches, or `null`.
   */
  function Exec(attempt: Attempt, re: Regex, code: String, from: nat): (r: Option<Match>)
    ensures r.Some? ==> from <= r.value.index <= |code| && attempt(re.source, code, r.value.index) == Some(r.value.groups)
    ensures r.Some? ==> forall p: nat :: from <= p < r.value.index ==> attempt(re.source, code, p).None?
    ensures r.None? ==> forall p: nat :: from <= p <= |code| ==> attempt(re.source, code, p).None?
    decreases |code| + 1 - from
  {
    if from > |code| then None
    else
      match attempt(re.source, code, from)
      case Some(g) => Some(Match(from, g))
      case None => Exec(attempt, re, code, from + 1)
  }

  lemma SoundAt(attempt: Attempt, src: Source, code: String, p: nat)
    requires Sound(attempt) && p <= |code| && attempt(src, code, p).Some?
    ensures var w := attempt(src, code, p).value.whole;
      p + |w| <= |code| && code[p..p + |w|] == w
  {
  }
}

=== FILE: resolve.dfy ===
/**
 * End of a pass: the queued regular-expression replacements are sorted by start and
 * applied left to right, except those nested strictly inside the last applied one,
 * which are left for the next pass (src/index.js:265-283).
 */
module Resolve {
  import opened Outcomes
  import opened Scan

  predicate SortedByStart(s: seq<Pending>)
  {
    forall i, j :: 0 <= i < j < |s| ==> s[i].start <= s[j].start
  }

  /** `x` lies strictly inside `y`: the test of src/index.js:274. */
  predicate Inside(x: Pending, y: Pending)
  {
    x.start > y.start && x.end < y.end
  }

  function Insert(x: Pending, s: seq<Pending>): (r: seq<Pending>)
    requires SortedByStart(s)
    ensures SortedByStart(r)
    ensures multiset(r) == multiset(s) + multiset{x}
    ensures |r| > 0 && (r[0] == x || (|s| > 0 && r[0] == s[0]))
  {
    if |s| == 0 || x.start <= s[0].start then
      SortedCons(x, s);
      [x] + s
    else
      var rest := Insert(x, s[1..]);
      ConsMultiset(s);
      SortedCons(s[0], rest);
      [s[0]] + rest
  }

  lemma SortedCons(h: Pending, t: seq<Pending>)
    requires SortedByStart(t) && (|t| > 0 ==> h.start <= t[0].start)
    ensures SortedByStart([h] + t)
  {
    var s := [h] + t;
    forall i, j | 0 <= i < j < |s| ensures s[i].start <= s[j].start {
      if i > 0 {
        assert s[i] == t[i - 1] && s[j] == t[j - 1];
      } else {
        assert s[j] == t[j - 1];
      }
    }
  }

  /** `regexToDo.sort((a, b) => a.start - b.start)`. */
  function SortByStart(s: seq<Pending>): (r: seq<Pending>)
    ensures SortedByStart(r)
    ensures multiset(r) == multiset(s)
  {
    if |s| == 0 then []
    else
      ConsMultiset(s);
      Insert(s[0], SortByStart(s[1..]))
  }

  /** Which replacements are applied this pass, which are deferred, and whether to retry. */
  datatype Selection = Selection(applied: seq<Pending>, deferred: seq<Pending>, retry: bool)

  /** Skipping a replacement nested inside `prev`, the last one applied. */
  function SelectFrom(s: seq<Pending>, prev: Option<Pending>): (r: Selection)
    ensures r.retry <==> |r.deferred| > 0
    ensures |s| > 0 && prev.None? ==> |r.applied| > 0 && r.applied[0] == s[0]
  {
    if |s| == 0 then Selection([], [], false)
    else
      var rest := SelectFrom(s[1..], if prev.Some? && Inside(s[0], prev.value) then prev else Some(s[0]));
      if prev.Some? && Inside(s[0], prev.value) then
        Selection(rest.applied, [s[0]] + rest.deferred, true)
      else
        Selection([s[0]] + rest.applied, rest.deferred, rest.retry)
  }

  /** Every replacement is either applied or deferred, exactly once. */
  lemma {:induction false} SelectPartition(s: seq<Pending>, prev: Option<Pending>)
    ensures var r := SelectFrom(s, prev);
      multiset(r.applied) + multiset(r.deferred) == multiset(s)
  {
    if |s| > 0 {
      var next := if prev.Some? && Inside(s[0], prev.value) then prev else Some(s[0]);
      var rest := SelectFrom(s[1..], next);
      SelectPartition(s[1..], next);
      ConsMultiset(s);
      if prev.Some? && Inside(s[0], prev.value) {
        ConsMultiset([s[0]] + rest.deferred);
        assert SelectFrom(s, prev).deferred == [s[0]] + rest.deferred;
      } else {
        ConsMultiset([s[0]] + rest.applied);
        assert SelectFrom(s, prev).applied == [s[0]] + rest.applied;
      }
    }
  }

  lemma ConsMultiset(s: seq<Pending>)
    requires |s| > 0
    ensures multiset(s) == multiset{s[0]} + multiset(s[1..])
    ensures forall y :: y in s[1..] ==> y in s
  {
    assert s == [s[0]] + s[1..];
  }

  /** `a` is `s` with some elements dropped: the rest keep their order, ties included. */
  predicate Subsequence(a: seq<Pending>, s: seq<Pending>)
    decreases |s|
  {
    |a| == 0 || (|s| > 0 && ((a[0] == s[0] && Subsequence(a[1..], s[1..])) || Subsequence(a, s[1..])))
  }

  /** The applied and the deferred replacements are both taken from the input, in its order. */
  lemma {:induction false} SelectKeepsOrder(s: seq<Pending>, prev: Option<Pending>)
    ensures forall y :: y in SelectFrom(s, prev).applied ==> y in s
    ensures SortedByStart(s) ==> SortedByStart(SelectFrom(s, prev).applied)
    ensures Subsequence(SelectFrom(s, prev).applied, s)
    ensures Subsequence(SelectFrom(s, prev).deferred, s)
  {
    if |s| > 0 {
      var next := if prev.Some? && Inside(s[0], prev.value) then prev else Some(s[0]);
      var rest := SelectFrom(s[1..], next);
      SelectKeepsOrder(s[1..], next);
      ConsMultiset(s);
      if !(prev.Some? && Inside(s[0], prev.value)) {
        SortedSub(s, rest.applied);
        var a := [s[0]] + rest.applied;
        assert SelectFrom(s, prev).applied == a;
        assert a[1..] == rest.applied;
      } else {
        var d := [s[0]] + rest.deferred;
        assert SelectFrom(s, prev).deferred == d;
        assert d[1..] == rest.deferred;
      }
    }
  }

  lemma SortedSub(s: seq<Pending>, t: seq<Pending>)
    requires |s| > 0 && forall y :: y in t ==> y in s[1..]
    requires SortedByStart(s) ==> SortedByStart(t)
    ensures SortedByStart(s) ==> SortedByStart([s[0]] + t)
  {
    if SortedByStart(s) {
      forall j | 0 <= j < |t| ensures s[0].start <= t[j].start {
        assert t[j] in t;
        assert t[j] in s[1..];
        var k :| 0 <= k < |s[1..]| && s[1..][k] == t[j];
        assert s[k + 1] == t[j];
      }
    }
  }

  /** No applied replacement lies inside the one applied just before it (or inside `prev`). */
  lemma {:induction false} SelectNotNested(s: seq<Pending>, prev: Option<Pending>)
    ensures var a := SelectFrom(s, prev).applied;
      forall i :: 0 <= i < |a| - 1 ==> !Inside(a[i + 1], a[i])
    ensures var a := SelectFrom(s, prev).applied;
      |a| > 0 && prev.Some? ==> !Inside(a[0], prev.value)
  {
    if |s| > 0 {
      var next := if prev.Some? && Inside(s[0], prev.value) then prev else Some(s[0]);
      SelectNotNested(s[1..], next);
      var rest := SelectFrom(s[1..], next).applied;
      if !(prev.Some? && Inside(s[0], prev.value)) {
        var a := [s[0]] + rest;
        assert SelectFrom(s, prev).applied == a;
        forall i | 0 <= i < |a| - 1 ensures !Inside(a[i + 1], a[i]) {
          if i > 0 { assert a[i] == rest[i - 1] && a[i + 1] == rest[i]; }
        }
      }
    }
  }

  /** Each deferred replacement lies inside `prev` or inside some applied one. */
  lemma {:induction false} SelectCovers(s: seq<Pending>, prev: Option<Pending>)
    ensures var r := SelectFrom(s, prev);
      forall x :: x in r.deferred ==>
        (prev.Some? && Inside(x, prev.value)) || exists y :: y in r.applied && Inside(x, y)
  {
    if |s| > 0 {
      var next := if prev.Some? && Inside(s[0], prev.value) then prev else Some(s[0]);
      SelectCovers(s[1..], next);
      var rest := SelectFrom(s[1..], next);
      if !(prev.Some? && Inside(s[0], prev.value)) {
        KeptCoversDeferred(s[0], rest.applied, rest.deferred);
        assert SelectFrom(s, prev) == Selection([s[0]] + rest.applied, rest.deferred, rest.retry);
      } else {
        assert SelectFrom(s, prev) == Selection(rest.applied, [s[0]] + rest.deferred, true);
      }
    }
  }

  lemma KeptCoversDeferred(head: Pending, applied: seq<Pending>, deferred: seq<Pending>)
    requires forall x :: x in deferred ==> Inside(x, head) || exists y :: y in applied && Inside(x, y)
    ensures forall x :: x in deferred ==> exists y :: y in [head] + applied && Inside(x, y)
  {
    forall x | x in deferred ensures exists y :: y in [head] + applied && Inside(x, y) {
      if Inside(x, head) {
        assert head in [head] + applied;
      } else {
        var y :| y in applied && Inside(x, y);
        assert y in [head] + applied;
      }
    }
  }

  /** The `prev` of the loop once `r` is selected: the last replacement applied, or the one before them all. */
  function LastKept(r: Selection, prev: Option<Pending>): Option<Pending>
  {
    if |r.applied| > 0 then Some(r.applied[|r.applied| - 1]) else prev
  }

  /**
   * The `forEach` of src/index.js:271-282 read left to right: each replacement is
   * deferred exactly when it lies strictly inside the last one applied before it.
   */
  function SelectLoop(s: seq<Pending>, prev: Option<Pending>): Selection
    decreases |s|
  {
    if |s| == 0 then Selection([], [], false)
    else Extend(SelectLoop(s[..|s| - 1], prev), s[|s| - 1], prev)
  }

  /** One more replacement at the end is deferred iff it lies inside the last one applied before it. */
  lemma {:induction false} SelectSnoc(s: seq<Pending>, x: Pending, prev: Option<Pending>)
    ensures SelectFrom(s + [x], prev) == Extend(SelectFrom(s, prev), x, prev)
    decreases |s|
  {
    if |s| > 0 {
      var next := if prev.Some? && Inside(s[0], prev.value) then prev else Some(s[0]);
      SelectSnoc(s[1..], x, next);
      SnocStep(s, x, prev, next);
    }
  }

  /** What the loop does with one more replacement `x` once `r` is selected. */
  function Extend(r: Selection, x: Pending, prev: Option<Pending>): Selection
  {
    var last := LastKept(r, prev);
    if last.Some? && Inside(x, last.value) then Selection(r.applied, r.deferred + [x], true)
    else Selection(r.applied + [x], r.deferred, r.retry)
  }

  lemma SnocStep(s: seq<Pending>, x: Pending, prev: Option<Pending>, next: Option<Pending>)
    requires |s| > 0 && next == if prev.Some? && Inside(s[0], prev.value) then prev else Some(s[0])
    requires SelectFrom(s[1..] + [x], next) == Extend(SelectFrom(s[1..], next), x, next)
    ensures SelectFrom(s + [x], prev) == Extend(SelectFrom(s, prev), x, prev)
  {
    var t := s + [x];
    assert t[0] == s[0] && t[1..] == s[1..] + [x];
    var rest := SelectFrom(s[1..], next);
    var restX := SelectFrom(t[1..], next);
    if prev.Some? && Inside(s[0], prev.value) {
      assert SelectFrom(s, prev) == Selection(rest.applied, [s[0]] + rest.deferred, true);
      assert SelectFrom(t, prev) == Selection(restX.applied, [s[0]] + restX.deferred, true);
      SnocDeferred(s[0], rest, x, prev);
    } else {
      assert SelectFrom(s, prev) == Selection([s[0]] + rest.applied, rest.deferred, rest.retry);
      assert SelectFrom(t, prev) == Selection([s[0]] + restX.applied, restX.deferred, restX.retry);
      SnocApplied(s[0], rest, x, prev);
    }
  }

  /** Extending after a deferred head is extending the rest, with the head still deferred. */
  lemma SnocDeferred(h: Pending, rest: Selection, x: Pending, prev: Option<Pending>)
    ensures var e := Extend(rest, x, prev);
      Extend(Selection(rest.applied, [h] + rest.deferred, true), x, prev) == Selection(e.applied, [h] + e.deferred, true)
  {
    assert ([h] + rest.deferred) + [x] == [h] + (rest.deferred + [x]);
  }

  /** Extending after an applied head is extending the rest, where the head is the `prev`. */
  lemma SnocApplied(h: Pending, rest: Selection, x: Pending, prev: Option<Pending>)
    ensures var e := Extend(rest, x, Some(h));
      Extend(Selection([h] + rest.applied, rest.deferred, rest.retry), x, prev) == Selection([h] + e.applied, e.deferred, e.retry)
  {
    var a := [h] + rest.applied;
    assert LastKept(Selection(a, rest.deferred, rest.retry), prev) == LastKept(rest, Some(h));
    assert a + [x] == [h] + (rest.applied + [x]);
  }

  /** Selecting by recursion from the front agrees with the loop. */
  lemma {:induction false} SelectIsLoop(s: seq<Pending>, prev: Option<Pending>)
    ensures SelectFrom(s, prev) == SelectLoop(s, prev)
    decreases |s|
  {
    if |s| > 0 {
      var init := s[..|s| - 1];
      SelectIsLoop(init, prev);
      SelectSnoc(init, s[|s| - 1], prev);
      assert init + [s[|s| - 1]] == s;
    }
  }

  /**
   * The resolution step: sort, then keep every replacement that is not strictly nested
   * in the last kept one. The leftmost replacement is always kept, a pass asks for
   * another exactly when some replacement was deferred, and each deferred one lies
   * inside a kept one.
   */
  function Resolve(pending: seq<Pending>): (r: Selection)
    ensures multiset(r.applied) + multiset(r.deferred) == multiset(pending)
    ensures r.retry <==> |r.applied| < |pending|
    ensures SortedByStart(r.applied)
    ensures forall i :: 0 <= i < |r.applied| - 1 ==> !Inside(r.applied[i + 1], r.applied[i])
    ensures |pending| > 0 ==> |r.applied| > 0 && forall x :: x in pending ==> r.applied[0].start <= x.start
    ensures forall x :: x in r.deferred ==> exists y :: y in r.applied && Inside(x, y)
    ensures Subsequence(r.applied, SortByStart(pending)) && Subsequence(r.deferred, SortByStart(pending))
    ensures r == SelectLoop(SortByStart(pending), None)
  {
    var sorted := SortByStart(pending);
    SelectIsLoop(sorted, None);
    SelectKeepsOrder(sorted, None);
    SelectionFacts(sorted, pending);
    SelectFrom(sorted, None)
  }

  /** What selecting from a sorted copy of `pending` guarantees. */
  lemma SelectionFacts(sorted: seq<Pending>, pending: seq<Pending>)
    requires SortedByStart(sorted) && multiset(sorted) == multiset(pending)
    ensures var r := SelectFrom(sorted, None);
      && multiset(r.applied) + multiset(r.deferred) == multiset(pending)
      && (r.retry <==> |r.applied| < |pending|)
      && SortedByStart(r.applied)
      && (forall i :: 0 <= i < |r.applied| - 1 ==> !Inside(r.applied[i + 1], r.applied[i]))
      && (|pending| > 0 ==> |r.applied| > 0 && forall x :: x in pending ==> r.applied[0].start <= x.start)
      && (forall x :: x in r.deferred ==> exists y :: y in r.applied && Inside(x, y))
  {
    var r := SelectFrom(sorted, None);
    SelectPartition(sorted, None);
    SelectKeepsOrder(sorted, None);
    SelectNotNested(sorted, None);
    SelectCovers(sorted, None);
    assert |multiset(r.applied)| + |multiset(r.deferred)| == |multiset(pending)|;
    SameMembers(pending, sorted);
    SortedFirstLeast(sorted);
  }

  lemma SameMembers(a: seq<Pending>, b: seq<Pending>)
    requires multiset(a) == multiset(b)
    ensures forall x :: x in a ==> x in b
  {
    forall x | x in a ensures x in b { assert multiset(b)[x] > 0; }
  }

  lemma SortedFirstLeast(s: seq<Pending>)
    requires SortedByStart(s)
    ensures |s| > 0 ==> forall x :: x in s ==> s[0].start <= x.start
  {
  }

  /** Both halves of a selection are drawn from the queue. */
  lemma PartMembers(r: Selection, pending: seq<Pending>)
    requires multiset(r.applied) + multiset(r.deferred) == multiset(pending)
    ensures forall x :: x in r.applied ==> x in pending
    ensures forall x :: x in r.deferred ==> x in pending
  {
    forall x | x in r.applied ensures x in pending { assert multiset(pending)[x] > 0; }
    forall x | x in r.deferred ensures x in pending { assert multiset(pending)[x] > 0; }
  }

  /** With no nested pair, every queued replacement is applied and no retry is asked for. */
  lemma NoNestingAppliesAll(pending: seq<Pending>)
    requires forall x, y :: x in pending && y in pending ==> !Inside(x, y)
    ensures multiset(Resolve(pending).applied) == multiset(pending)
    ensures !Resolve(pending).retry
  {
    var r := Resolve(pending);
    PartMembers(r, pending);
    DeferredWitness(r, pending);
  }

  /** A deferred replacement exhibits a nested pair in the queue. */
  lemma DeferredWitness(r: Selection, pending: seq<Pending>)
    requires forall x :: x in r.applied ==> x in pending
    requires forall x :: x in r.deferred ==> x in pending
    requires forall x :: x in r.deferred ==> exists y :: y in r.applied && Inside(x, y)
    ensures |r.deferred| > 0 ==> exists x, y :: x in pending && y in pending && Inside(x, y)
  {
    if |r.deferred| > 0 {
      var x := r.deferred[0];
      assert x in r.deferred;
      var y :| y in r.applied && Inside(x, y);
      assert x in pending && y in pending;
    }
  }
}

=== FILE: scan.dfy ===
/**
 * Searching the pass's `code` for one pattern's test: the `exec` loop that queues
 * regular-expression matches (src/index.js:201-238) and the `indexOf` loop over a
 * literal test (src/index.js:239-257).
 */
module Scan {
  import opened Outcomes
  import opened Text
  import opened Regex
  import opened Patterns
  import opened Host
  import Template

  /** A queued regular-expression replacement, `{ start, end, str }`. */
  datatype Pending = Pending(start: nat, end: nat, str: String)

  /** The matches the `exec` loop sees, and whether it then repeats the last one forever. */
  datatype Execs = Execs(matches: seq<Match>, loops: bool)

  /**
   * The `exec` calls of one pattern, from `lastIndex == from`: a non-global expression
   * is executed once; a global one until `exec` returns `null`. A global match of
   * length zero leaves `lastIndex` where it was, so the loop never ends.
   */
  function ExecAll(attempt: Attempt, re: Regex, code: String, from: nat): (r: Execs)
    ensures !re.global ==> |r.matches| <= 1 && !r.loops
    ensures forall i :: 0 <= i < |r.matches| - 1 ==> 0 < |r.matches[i].groups.whole|
    ensures forall i :: 0 <= i < |r.matches| ==> from <= r.matches[i].index
    ensures forall i :: 0 <= i < |r.matches| - 1 ==> r.matches[i].End() <= r.matches[i + 1].index
    ensures r.loops <==> re.global && |r.matches| > 0 && |r.matches[|r.matches| - 1].groups.whole| == 0
    decreases |code| + 1 - from
  {
    match Exec(attempt, re, code, from)
    case None => Execs([], false)
    case Some(m) =>
      if !re.global then Execs([m], false)
      else if |m.groups.whole| == 0 then Execs([m], true)
      else
        var rest := ExecAll(attempt, re, code, m.End());
        Execs([m] + rest.matches, rest.loops)
  }

  /** The first match is what `exec` returns from `from`, and there is none exactly when it returns `null`. */
  lemma ExecAllStarts(attempt: Attempt, re: Regex, code: String, from: nat)
    ensures var ms := ExecAll(attempt, re, code, from).matches;
      && (|ms| == 0 <==> Exec(attempt, re, code, from).None?)
      && (|ms| > 0 ==> Exec(attempt, re, code, from) == Some(ms[0]))
  {
  }

  /** Each match after the first is what `exec` returns from the end of the one before. */
  predicate Chained(attempt: Attempt, re: Regex, code: String, ms: seq<Match>)
  {
    forall i :: 0 <= i < |ms| - 1 ==> Exec(attempt, re, code, ms[i].End()) == Some(ms[i + 1])
  }

  lemma {:induction false} ExecAllChained(attempt: Attempt, re: Regex, code: String, from: nat)
    ensures Chained(attempt, re, code, ExecAll(attempt, re, code, from).matches)
    decreases |code| + 1 - from
  {
    match Exec(attempt, re, code, from)
    case None =>
    case Some(m) =>
      if re.global && |m.groups.whole| > 0 {
        var rest := ExecAll(attempt, re, code, m.End()).matches;
        ExecAllChained(attempt, re, code, m.End());
        ExecAllStarts(attempt, re, code, m.End());
        ConsChained(attempt, re, code, m, rest);
      }
  }

  lemma ConsChained(attempt: Attempt, re: Regex, code: String, m: Match, rest: seq<Match>)
    requires Chained(attempt, re, code, rest)
    requires |rest| > 0 ==> Exec(attempt, re, code, m.End()) == Some(rest[0])
    ensures Chained(attempt, re, code, [m] + rest)
  {
    var ms := [m] + rest;
    forall i | 0 <= i < |ms| - 1 ensures Exec(attempt, re, code, ms[i].End()) == Some(ms[i + 1]) {
      if i > 0 { assert ms[i] == rest[i - 1] && ms[i + 1] == rest[i]; }
    }
  }

  /** A global loop that ends does so because `exec` found nothing after the last match. */
  lemma {:induction false} ExecAllStops(attempt: Attempt, re: Regex, code: String, from: nat)
    ensures var r := ExecAll(attempt, re, code, from);
      re.global && !r.loops && |r.matches| > 0 ==> Exec(attempt, re, code, r.matches[|r.matches| - 1].End()).None?
    decreases |code| + 1 - from
  {
    match Exec(attempt, re, code, from)
    case None =>
    case Some(m) =>
      if re.global && |m.groups.whole| > 0 {
        var rest := ExecAll(attempt, re, code, m.End());
        ExecAllStops(attempt, re, code, m.End());
        ExecAllStarts(attempt, re, code, m.End());
        var ms := [m] + rest.matches;
        assert ExecAll(attempt, re, code, from) == Execs(ms, rest.loops);
        if |rest.matches| > 0 {
          assert ms[|ms| - 1] == rest.matches[|rest.matches| - 1];
        }
      }
  }

  /** Why a global empty match loops: `exec` from its own end finds it again. */
  lemma EmptyMatchRepeats(attempt: Attempt, re: Regex, code: String, from: nat)
    requires Exec(attempt, re, code, from).Some?
    requires |Exec(attempt, re, code, from).value.groups.whole| == 0
    ensures var m := Exec(attempt, re, code, from).value;
      Exec(attempt, re, code, m.End()) == Some(m)
  {
  }

  /** The replacement string for one match (src/index.js:209-235). */
  function Replacement(env: Env, rep: Replace, code: String, m: Match): (r: Result<String, Halt>)
    ensures r.Failure? ==> r.error == Fail(ReplaceNotString) || r.error == Fail(ReplaceNotFunction)
    ensures rep.StringReplace? ==> r.Success?
    ensures rep.NoReplace? ==> r == Failure(Fail(ReplaceNotFunction))
    ensures rep.FunctionReplace? ==>
      (r.Failure? <==> env.call(rep.f, [Some(m.groups.whole)] + m.groups.captures).None?)
    ensures rep.FunctionReplace? && r.Success? ==>
      r.value == env.call(rep.f, [Some(m.groups.whole)] + m.groups.captures).value
  {
    match rep
    case StringReplace(t) =>
      Success(Template.Expand(t, MatchTextOf(code, m)))
    case FunctionReplace(f) =>
      (match env.call(f, [Some(m.groups.whole)] + m.groups.captures)
       case Some(s) => Success(s)
       case None => Failure(Fail(ReplaceNotString)))
    case NoReplace => Failure(Fail(ReplaceNotFunction))
  }

  /**
   * In a string replace, `$&` gives `match[0]`, `` $` `` the code before the match and
   * `$'` the code after it.
   */
  lemma ReplacementSlices(env: Env, code: String, m: Match, rest: String)
    requires m.End() <= |code|
    ensures Replacement(env, StringReplace("$&" + rest), code, m).value
      == m.groups.whole + Replacement(env, StringReplace(rest), code, m).value
    ensures Replacement(env, StringReplace("$`" + rest), code, m).value
      == code[..m.index] + Replacement(env, StringReplace(rest), code, m).value
    ensures Replacement(env, StringReplace("$'" + rest), code, m).value
      == code[m.End()..] + Replacement(env, StringReplace(rest), code, m).value
  {
    var mt := MatchTextOf(code, m);
    Template.ExpandEscape(Template.WholeMatch, rest, mt);
    Template.ExpandEscape(Template.BeforeMatch, rest, mt);
    Template.ExpandEscape(Template.AfterMatch, rest, mt);
  }

  /**
   * In a string replace, `$N` reads the longest digit run: for `1 <= N < match.length` it
   * gives capture N (empty when that group did not take part), and otherwise it stays as
   * written.
   */
  lemma ReplacementGroup(env: Env, code: String, m: Match, d: String, rest: String)
    requires |d| > 0 && Template.AllDigits(d) && (|rest| == 0 || !Template.IsDigit(rest[0]))
    ensures var n := Template.DigitsValue(d);
      1 <= n <= |m.groups.captures| ==>
        Replacement(env, StringReplace("$" + d + rest), code, m).value
          == Template.GroupText(m.groups.captures[n - 1]) + Replacement(env, StringReplace(rest), code, m).value
    ensures var n := Template.DigitsValue(d);
      n == 0 || n > |m.groups.captures| ==>
        Replacement(env, StringReplace("$" + d + rest), code, m).value
          == "$" + d + Replacement(env, StringReplace(rest), code, m).value
  {
    var mt := MatchTextOf(code, m);
    StringReplacement(env, "$" + d + rest, code, m);
    StringReplacement(env, rest, code, m);
    Template.ExpandGroupValue(d, rest, mt);
  }

  /** What a template sees of a match: `match[0]`, the captures, and the code around the match. */
  function MatchTextOf(code: String, m: Match): Template.MatchText
  {
    Template.MatchText(m.groups.whole, m.groups.captures, Before(code, m.index), After(code, m.End()))
  }

  lemma StringReplacement(env: Env, t: String, code: String, m: Match)
    ensures Replacement(env, StringReplace(t), code, m) == Success(Template.Expand(t, MatchTextOf(code, m)))
  {
  }

  /** The `'$2, $1'` replace of the plugin's tests swaps the two captured words of a match. */
  lemma ReplacementSwap(env: Env, code: String, m: Match, a: String, b: String)
    requires m.groups.captures == [Some(a), Some(b)]
    ensures Replacement(env, StringReplace("$2, $1"), code, m) == Success(b + ", " + a)
  {
    Template.SwapExample(a, b, m.groups.whole, Before(code, m.index), After(code, m.End()));
  }

  /** The queued record of one match whose replacement is `str`. */
  function ToPending(m: Match, str: String): Pending
  {
    Pending(m.index, m.End(), str)
  }

  /** Replacement strings for the matches in order; the first failing one stops the loop. */
  function Queue(env: Env, rep: Replace, code: String, ms: seq<Match>): (r: Result<seq<Pending>, Halt>)
    ensures r.Success? ==> |r.value| == |ms|
    ensures r.Success? ==> forall i :: 0 <= i < |ms| ==>
      Replacement(env, rep, code, ms[i]) == Success(r.value[i].str) && r.value[i] == ToPending(ms[i], r.value[i].str)
    ensures r.Failure? ==> r.error == Fail(ReplaceNotString) || r.error == Fail(ReplaceNotFunction)
  {
    if |ms| == 0 then Success([])
    else
      var str :- Replacement(env, rep, code, ms[0]);
      var rest :- Queue(env, rep, code, ms[1..]);
      Success([ToPending(ms[0], str)] + rest)
  }

  /**
   * Everything one regular-expression test queues for the pass; nothing is applied
   * here. A global expression that finds an empty match never returns.
   */
  function Collect(env: Env, re: Regex, rep: Replace, code: String): (r: Result<seq<Pending>, Halt>)
    ensures var e := ExecAll(env.attempt, re, code, 0);
      r.Success? ==> (!e.loops && |r.value| == |e.matches|
        && forall i :: 0 <= i < |r.value| ==>
          (r.value[i].start == e.matches[i].index && r.value[i].end == e.matches[i].End()
           && Replacement(env, rep, code, e.matches[i]) == Success(r.value[i].str)))
    ensures r.Success? && !re.global ==> |r.value| <= 1
    ensures r.Success? && re.global ==> forall i :: 0 <= i < |r.value| - 1 ==> r.value[i].start < r.value[i].end <= r.value[i + 1].start
    ensures r.Failure? && r.error.Diverge? ==> re.global && ExecAll(env.attempt, re, code, 0).loops
    ensures r.Failure? && r.error.Fail? ==> r.error.error == ReplaceNotString || r.error.error == ReplaceNotFunction
  {
    var e := ExecAll(env.attempt, re, code, 0);
    var queued :- Queue(env, rep, code, e.matches);
    if e.loops then Failure(Diverge) else Success(queued)
  }

  /** Every queued match covers the text the engine reported for it. */
  lemma CollectSound(env: Env, re: Regex, rep: Replace, code: String)
    requires Sound(env.attempt)
    requires Collect(env, re, rep, code).Success?
    ensures var ps := Collect(env, re, rep, code).value;
      forall i :: 0 <= i < |ps| ==> (ps[i].start <= ps[i].end <= |code|
        && code[ps[i].start..ps[i].end] == ExecAll(env.attempt, re, code, 0).matches[i].groups.whole)
  {
    ExecAllSound(env.attempt, re, code, 0);
    assert AllCover(code, ExecAll(env.attempt, re, code, 0).matches);
  }

  /** The text `m` claims to have matched is the text of `code` it covers. */
  predicate Covers(code: String, m: Match)
  {
    m.End() <= |code| && code[m.index..m.End()] == m.groups.whole
  }

  predicate AllCover(code: String, ms: seq<Match>)
  {
    forall i :: 0 <= i < |ms| ==> Covers(code, ms[i])
  }

  lemma {:induction false} ExecAllSound(attempt: Attempt, re: Regex, code: String, from: nat)
    requires Sound(attempt)
    ensures AllCover(code, ExecAll(attempt, re, code, from).matches)
    decreases |code| + 1 - from
  {
    match Exec(attempt, re, code, from)
    case None =>
    case Some(m) =>
      ExecSound(attempt, re, code, from);
      if re.global && |m.groups.whole| > 0 {
        var rest := ExecAll(attempt, re, code, m.End()).matches;
        ExecAllSound(attempt, re, code, m.End());
        ConsCover(code, m, rest);
      }
  }

  lemma ConsCover(code: String, m: Match, rest: seq<Match>)
    requires Covers(code, m) && AllCover(code, rest)
    ensures AllCover(code, [m] + rest)
  {
    var ms := [m] + rest;
    forall i | 0 <= i < |ms| ensures Covers(code, ms[i]) {
      if i > 0 { assert ms[i] == rest[i - 1]; }
    }
  }

  lemma ExecSound(attempt: Attempt, re: Regex, code: String, from: nat)
    requires Sound(attempt) && Exec(attempt, re, code, from).Some?
    ensures Covers(code, Exec(attempt, re, code, from).value)
  {
    var m := Exec(attempt, re, code, from).value;
    SoundAt(attempt, re.source, code, m.index);
  }

  predicate StrictlyIncreasing(s: seq<nat>)
  {
    forall i, j :: 0 <= i < j < |s| ==> s[i] < s[j]
  }

  /**
   * The `indexOf` loop: the occurrences of `pat` in `code` from `pos` on, where `pos` is
   * the result of the previous `indexOf`.
   */
  function PositionsFrom(code: String, pat: String, pos: int): (r: seq<nat>)
    requires |pat| > 0
    requires pos == -1 || (0 <= pos && OccursAt(code, pat, pos))
    ensures StrictlyIncreasing(r)
    ensures pos != -1 ==> |r| > 0 && r[0] == pos
    ensures forall i: nat :: i in r <==> pos != -1 && pos <= i && OccursAt(code, pat, i)
    decreases if pos == -1 then 0 else |code| + 1 - pos
  {
    if pos == -1 then []
    else
      var next := IndexOf(code, pat, pos + 1);
      [pos] + PositionsFrom(code, pat, next)
  }

  /**
   * The positions the literal scan visits (src/index.js:242-256): exactly the indices
   * where `pat` occurs, in increasing order, overlapping occurrences included.
   */
  function LiteralPositions(code: String, pat: String): (r: seq<nat>)
    requires |pat| > 0
    ensures StrictlyIncreasing(r)
    ensures forall i: nat :: i in r <==> OccursAt(code, pat, i)
  {
    PositionsFrom(code, pat, IndexOf(code, pat, 0))
  }
}

=== FILE: template.dfy ===
/**
 * Expansion of a string replacement against one regular-expression match
 * (src/index.js:211-229): the template is scanned left to right for the tokens
 * `$$`, `$&`, `` $` ``, `$'` and `$` followed by a run of digits; every other
 * character is copied.
 */
module Template {
  import opened Outcomes
  import opened Text

  /** What a token may refer to: the match, its capture groups, and the text around it. */
  datatype MatchText = MatchText(whole: String, groups: seq<Option<String>>, before: String, after: String)

  predicate IsDigit(c: char)
  {
    '0' <= c <= '9'
  }

  predicate AllDigits(s: String)
  {
    forall i :: 0 <= i < |s| ==> IsDigit(s[i])
  }

  /** Length of the run of digits `s` starts with (the greedy `\d+`). */
  function DigitRun(s: String): (n: nat)
    ensures n <= |s| && AllDigits(s[..n])
    ensures n < |s| ==> !IsDigit(s[n])
  {
    if |s| > 0 && IsDigit(s[0]) then 1 + DigitRun(s[1..]) else 0
  }

  /** `+digits`: the decimal value of a run of digits. */
  function DigitsValue(d: String): nat
    requires AllDigits(d)
  {
    if |d| == 0 then 0 else 10 * DigitsValue(d[..|d| - 1]) + (d[|d| - 1] as int - '0' as int)
  }

  /** One match of the token regular expression, or one copied character. */
  datatype Token =
    | Plain(c: char)
    | Dollar
    | WholeMatch
    | BeforeMatch
    | AfterMatch
    | GroupRef(digits: String)

  predicate WellFormed(tok: Token)
  {
    tok.GroupRef? ==> |tok.digits| > 0 && AllDigits(tok.digits)
  }

  /** The two-character token `$c`, when `c` names one. */
  function Escape(c: char): Option<Token>
  {
    if c == '$' then Some(Dollar)
    else if c == '&' then Some(WholeMatch)
    else if c == '`' then Some(BeforeMatch)
    else if c == '\'' then Some(AfterMatch)
    else None
  }

  /** Splits a template into tokens the way `/\$\$|\$&|\$`|\$'|\$\d+/g` finds them. */
  function Tokenize(t: String): (ts: seq<Token>)
    ensures forall i :: 0 <= i < |ts| ==> WellFormed(ts[i])
    decreases |t|
  {
    if |t| == 0 then []
    else if t[0] == '$' && |t| >= 2 && Escape(t[1]).Some? then [Escape(t[1]).value] + Tokenize(t[2..])
    else if t[0] == '$' && |t| >= 2 && IsDigit(t[1]) then
      var n := 1 + DigitRun(t[1..]);
      assert t[1..n] == t[1..][..n - 1];
      [GroupRef(t[1..n])] + Tokenize(t[n..])
    else [Plain(t[0])] + Tokenize(t[1..])
  }

  /** The template text a token was read from. */
  function Spell(tok: Token): String
  {
    match tok
    case Plain(c) => [c]
    case Dollar => "$$"
    case WholeMatch => "$&"
    case BeforeMatch => "$`"
    case AfterMatch => "$'"
    case GroupRef(d) => "$" + d
  }

  function Untokenize(ts: seq<Token>): String
  {
    if |ts| == 0 then [] else Spell(ts[0]) + Untokenize(ts[1..])
  }

  /** `match[n] || ''`: an unset group, like an empty one, gives the empty string. */
  function GroupText(g: Option<String>): String
  {
    match g
    case Some(s) => s
    case None => []
  }

  /**
   * What one token contributes to the replacement (the callback of src/index.js:211-229):
   * a copied character and a group number out of range stay as written, `$$` collapses to
   * one `$`, and the other tokens read the part of the match they name.
   */
  function Value(tok: Token, m: MatchText): (r: String)
    requires WellFormed(tok)
    ensures tok.Plain? ==> r == Spell(tok)
    ensures tok.Dollar? ==> r == Spell(tok)[1..]
    ensures tok.WholeMatch? ==> r == m.whole
    ensures tok.BeforeMatch? ==> r == m.before
    ensures tok.AfterMatch? ==> r == m.after
    ensures tok.GroupRef? ==> var n := DigitsValue(tok.digits);
      r == if 1 <= n <= |m.groups| then GroupText(m.groups[n - 1]) else Spell(tok)
  {
    match tok
    case Plain(c) => [c]
    case Dollar => "$"
    case WholeMatch => m.whole
    case BeforeMatch => m.before
    case AfterMatch => m.after
    case GroupRef(d) =>
      var n := DigitsValue(d);
      if 1 <= n < |m.groups| + 1 then GroupText(m.groups[n - 1]) else Spell(tok)
  }

  function ExpandTokens(ts: seq<Token>, m: MatchText): String
    requires forall i :: 0 <= i < |ts| ==> WellFormed(ts[i])
  {
    if |ts| == 0 then [] else Value(ts[0], m) + ExpandTokens(ts[1..], m)
  }

  /**
   * `template.replace(/\$\$|\$&|\$`|\$'|\$\d+/g, ...)` for the match `m`: a template
   * without `$` is copied unchanged, whatever the match.
   */
  function Expand(t: String, m: MatchText): (r: String)
    ensures NoDollar(t) ==> r == t
  {
    PlainTokens(t, m);
    ExpandTokens(Tokenize(t), m)
  }

  /** Tokenizing loses nothing: the tokens spell the template back. */
  lemma {:induction false} TokenizeRoundTrip(t: String)
    ensures Untokenize(Tokenize(t)) == t
    decreases |t|
  {
    if |t| == 0 {
    } else if t[0] == '$' && |t| >= 2 && Escape(t[1]).Some? {
      TokenizeRoundTrip(t[2..]);
      EscapeRoundTrip(t);
    } else if t[0] == '$' && |t| >= 2 && IsDigit(t[1]) {
      TokenizeRoundTrip(t[1 + DigitRun(t[1..])..]);
      GroupRoundTrip(t);
    } else {
      TokenizeRoundTrip(t[1..]);
      PlainRoundTrip(t);
    }
  }

  lemma EscapeRoundTrip(t: String)
    requires |t| >= 2 && t[0] == '$' && Escape(t[1]).Some?
    requires Untokenize(Tokenize(t[2..])) == t[2..]
    ensures Untokenize(Tokenize(t)) == t
  {
    var tok := Escape(t[1]).value;
    assert Tokenize(t) == [tok] + Tokenize(t[2..]);
    SpellPrefix(t, tok, 2);
  }

  lemma GroupRoundTrip(t: String)
    requires |t| >= 2 && t[0] == '$' && Escape(t[1]).None? && IsDigit(t[1])
    requires Untokenize(Tokenize(t[1 + DigitRun(t[1..])..])) == t[1 + DigitRun(t[1..])..]
    ensures Untokenize(Tokenize(t)) == t
  {
    var n := 1 + DigitRun(t[1..]);
    TokenizeGroup(t);
    SpellGroup(t, n);
    SpellPrefix(t, GroupRef(t[1..n]), n);
  }

  lemma TokenizeGroup(t: String)
    requires |t| >= 2 && t[0] == '$' && Escape(t[1]).None? && IsDigit(t[1])
    ensures 1 + DigitRun(t[1..]) <= |t|
    ensures Tokenize(t) == [GroupRef(t[1..1 + DigitRun(t[1..])])] + Tokenize(t[1 + DigitRun(t[1..])..])
  {
  }

  lemma SpellGroup(t: String, n: nat)
    requires 1 <= n <= |t| && t[0] == '$'
    ensures Spell(GroupRef(t[1..n])) == t[..n]
  {
    assert t[..n] == [t[0]] + t[1..n];
  }

  lemma PlainRoundTrip(t: String)
    requires |t| >= 1 && !(t[0] == '$' && |t| >= 2 && (Escape(t[1]).Some? || IsDigit(t[1])))
    requires Untokenize(Tokenize(t[1..])) == t[1..]
    ensures Untokenize(Tokenize(t)) == t
  {
    assert Tokenize(t) == [Plain(t[0])] + Tokenize(t[1..]);
    SpellPrefix(t, Plain(t[0]), 1);
  }

  /** Reading the first token back, given that the rest of the template reads back. */
  lemma SpellPrefix(t: String, tok: Token, n: nat)
    requires n <= |t| && Spell(tok) == t[..n]
    requires Untokenize(Tokenize(t[n..])) == t[n..]
    ensures Untokenize([tok] + Tokenize(t[n..])) == t
  {
    assert ([tok] + Tokenize(t[n..]))[1..] == Tokenize(t[n..]);
    assert Spell(tok) + t[n..] == t;
  }

  predicate NoDollar(t: String)
  {
    forall i :: 0 <= i < |t| ==> t[i] != '$'
  }

  /** Without `$` every character is a token of its own, copied as it is. */
  lemma {:induction false} PlainTokens(t: String, m: MatchText)
    ensures NoDollar(t) ==> ExpandTokens(Tokenize(t), m) == t
    decreases |t|
  {
    if |t| > 0 {
      PlainTokens(t[1..], m);
      assert t == [t[0]] + t[1..];
    }
  }

  /** A run of digits followed by a non-digit ends where the digits end. */
  lemma {:induction false} DigitRunOf(d: String, rest: String)
    requires AllDigits(d)
    requires |rest| == 0 || !IsDigit(rest[0])
    ensures DigitRun(d + rest) == |d|
    decreases |d|
  {
    if |d| > 0 {
      assert (d + rest)[1..] == d[1..] + rest;
      DigitRunOf(d[1..], rest);
    }
  }

  /**
   * A token may start the next one only when it is a lone `$` (then `$` plus the next
   * character would read as one token) or a group reference followed by more digits.
   */
  predicate Separated(tok: Token, rest: String)
  {
    && (tok == Plain('$') ==> |rest| == 0 || (Escape(rest[0]).None? && !IsDigit(rest[0])))
    && (tok.GroupRef? ==> |rest| == 0 || !IsDigit(rest[0]))
  }

  /**
   * Expansion works token by token: the spelling of a token followed by the rest of
   * the template expands to the token's value followed by the rest's expansion.
   */
  lemma ExpandToken(tok: Token, rest: String, m: MatchText)
    requires WellFormed(tok) && Separated(tok, rest)
    ensures Expand(Spell(tok) + rest, m) == Value(tok, m) + Expand(rest, m)
  {
    match tok {
      case Plain(c) => ExpandPlain(c, rest, m);
      case GroupRef(d) => ExpandGroup(d, rest, m);
      case _ => ExpandEscape(tok, rest, m);
    }
  }

  lemma ExpandPlain(c: char, rest: String, m: MatchText)
    requires Separated(Plain(c), rest)
    ensures Expand([c] + rest, m) == [c] + Expand(rest, m)
  {
    var t := [c] + rest;
    assert t[1..] == rest;
    assert Tokenize(t) == [Plain(c)] + Tokenize(rest);
  }

  lemma ExpandGroup(d: String, rest: String, m: MatchText)
    requires |d| > 0 && AllDigits(d) && (|rest| == 0 || !IsDigit(rest[0]))
    ensures Expand("$" + d + rest, m) == Value(GroupRef(d), m) + Expand(rest, m)
  {
    var t := "$" + d + rest;
    assert t[1..] == d + rest;
    DigitRunOf(d, rest);
    assert t[1..1 + |d|] == d;
    assert t[1 + |d|..] == rest;
    assert Tokenize(t) == [GroupRef(d)] + Tokenize(rest);
  }

  /** `$N` gives group N, or '' when it is unset, for `1 <= N < match.length`, and is kept as written otherwise. */
  lemma ExpandGroupValue(d: String, rest: String, m: MatchText)
    requires |d| > 0 && AllDigits(d) && (|rest| == 0 || !IsDigit(rest[0]))
    ensures 1 <= DigitsValue(d) <= |m.groups| ==>
      Expand("$" + d + rest, m) == GroupText(m.groups[DigitsValue(d) - 1]) + Expand(rest, m)
    ensures DigitsValue(d) == 0 || DigitsValue(d) > |m.groups| ==>
      Expand("$" + d + rest, m) == "$" + d + Expand(rest, m)
  {
    ExpandGroup(d, rest, m);
    GroupValueBefore(d, m, Expand("$" + d + rest, m), Expand(rest, m));
  }

  lemma GroupValueBefore(d: String, m: MatchText, x: String, z: String)
    requires |d| > 0 && AllDigits(d) && x == Value(GroupRef(d), m) + z
    ensures 1 <= DigitsValue(d) <= |m.groups| ==> x == GroupText(m.groups[DigitsValue(d) - 1]) + z
    ensures DigitsValue(d) == 0 || DigitsValue(d) > |m.groups| ==> x == "$" + d + z
  {
    if 1 <= DigitsValue(d) <= |m.groups| {
      GroupInRange(d, m, x, z);
    } else {
      SpellGroupBefore(d, m, x, z);
    }
  }

  lemma GroupInRange(d: String, m: MatchText, x: String, z: String)
    requires |d| > 0 && AllDigits(d) && 1 <= DigitsValue(d) <= |m.groups|
    requires x == Value(GroupRef(d), m) + z
    ensures x == GroupText(m.groups[DigitsValue(d) - 1]) + z
  {
  }

  lemma SpellGroupBefore(d: String, m: MatchText, x: String, z: String)
    requires |d| > 0 && AllDigits(d) && x == Spell(GroupRef(d)) + z
    ensures x == "$" + d + z
  {
  }

  lemma ExpandEscape(tok: Token, rest: String, m: MatchText)
    requires tok.Dollar? || tok.WholeMatch? || tok.BeforeMatch? || tok.AfterMatch?
    ensures Expand(Spell(tok) + rest, m) == Value(tok, m) + Expand(rest, m)
  {
    var t := Spell(tok) + rest;
    assert Escape(t[1]) == Some(tok);
    assert t[2..] == rest;
    assert Tokenize(t) == [tok] + Tokenize(rest);
  }

  /** `$0`, and `$N` beyond the last group, are copied unchanged. */
  lemma UnknownGroupVerbatim(d: String, rest: String, m: MatchText)
    requires |d| > 0 && AllDigits(d) && (|rest| == 0 || !IsDigit(rest[0]))
    requires DigitsValue(d) == 0 || DigitsValue(d) > |m.groups|
    ensures Expand("$" + d + rest, m) == "$" + d + Expand(rest, m)
  {
    ExpandToken(GroupRef(d), rest, m);
  }

  /** The example the plugin's tests rely on: `'$2, $1'` swaps two captured words. */
  lemma SwapExample(a: String, b: String, whole: String, before: String, after: String)
    ensures Expand("$2, $1", MatchText(whole, [Some(a), Some(b)], before, after)) == b + ", " + a
  {
    var m := MatchText(whole, [Some(a), Some(b)], before, after);
    SwapLiterals(a, b);
    GroupAlone(m);
    ExpandPlain(' ', "$1", m);
    ExpandPlain(',', " $1", m);
    GroupBefore(", $1", m);
  }

  lemma SwapLiterals(a: String, b: String)
    ensures "$2, $1" == "$2" + ", $1" && ", $1" == [','] + " $1" && " $1" == [' '] + "$1"
    ensures b + ([','] + ([' '] + a)) == b + ", " + a
  {
  }

  /** `$1` alone expands to the first group. */
  lemma GroupAlone(m: MatchText)
    requires |m.groups| >= 1 && m.groups[0].Some?
    ensures Expand("$1", m) == m.groups[0].value
  {
    assert DigitsValue("1") == 1;
    assert Expand("", m) == [];
    ExpandGroup("1", "", m);
    assert "$1" == "$" + "1" + "";
  }

  /** `$2` followed by a non-digit expands to the second group and then the rest. */
  lemma GroupBefore(rest: String, m: MatchText)
    requires |m.groups| >= 2 && m.groups[1].Some?
    requires |rest| == 0 || !IsDigit(rest[0])
    ensures Expand("$2" + rest, m) == m.groups[1].value + Expand(rest, m)
  {
    assert DigitsValue("2") == 2;
    ExpandGroup("2", rest, m);
    assert "$2" + rest == "$" + "2" + rest;
  }
}

=== FILE: text.dfy ===
/** JavaScript string operations the plugin relies on, over `seq<char>`. */
module Text {

  type String = seq<char>

  /** `s.slice(0, n)`: JavaScript clamps an index past the end to the length. */
  function Before(s: String, n: nat): String
  {
    if n <= |s| then s[..n] else s
  }

  /** `s.slice(n)`, clamped the same way. */
  function After(s: String, n: nat): String
  {
    if n <= |s| then s[n..] else []
  }

  /** `pat` occurs in `text` starting at index `i`. */
  predicate OccursAt(text: String, pat: String, i: nat)
  {
    i + |pat| <= |text| && text[i..i + |pat|] == pat
  }

  /** The index where `String.prototype.indexOf` starts looking: `from` clamped to the length. */
  function Clamp(text: String, from: nat): nat
  {
    if from <= |text| then from else |text|
  }

  /**
   * `text.indexOf(pat, from)`: the first occurrence of `pat` at or after the clamped
   * start, or -1 when there is none.
   */
  function IndexOf(text: String, pat: String, from: nat): (r: int)
    ensures r == -1 || (Clamp(text, from) <= r && OccursAt(text, pat, r))
    ensures r == -1 ==> forall i: nat :: Clamp(text, from) <= i ==> !OccursAt(text, pat, i)
    ensures r != -1 ==> forall i: nat :: Clamp(text, from) <= i < r ==> !OccursAt(text, pat, i)
  {
    SearchFrom(text, pat, Clamp(text, from))
  }

  function SearchFrom(text: String, pat: String, k: nat): (r: int)
    requires k <= |text|
    ensures r == -1 || (k <= r && OccursAt(text, pat, r))
    ensures r == -1 ==> forall i: nat :: k <= i ==> !OccursAt(text, pat, i)
    ensures r != -1 ==> forall i: nat :: k <= i < r ==> !OccursAt(text, pat, i)
    decreases |text| - k
  {
    if OccursAt(text, pat, k) then k
    else if k == |text| then -1
    else SearchFrom(text, pat, k + 1)
  }
}
